=== FILE: README.md ===
# TilemapBuilder in Dafny

A model of the in-world building subsystem of the game client: the
`TilemapBuilder` class in `src/client/services/TilemapBuilder.ts`. The player
paints tiles onto four layers of a live map (floor, wall, roof, special) with a
hammer or clears them with a pick. Placement is checked against the leader's
reach and body. Every frame, a "see-through roof" pass fades roof tiles around
each party member. The pass uses radii that grow and shrink, and it batches the
faded tiles for a delayed reset to full opacity.

Modules, one file each:

| file | module | what it holds |
|---|---|---|
| `wrappers.dfy` | `Wrappers` | `Option` |
| `js_number.dfy` | `JsNumber` | JavaScript numbers as far as the fades need them: finite, ±Infinity, NaN; division and `<` |
| `geometry.dfy` | `Geometry` | world points, 16-pixel cells, snapping, the 125-pixel reach test, the box-overlap test |
| `layers.dfy` | `Layers` | the four layers, tile sets, tiles, a layer as a map from cell to tile |
| `session.dfy` | `Session` | build mode, tool, layer, rotation and selected tile; the cursors; the configuration-event handlers |
| `vision.dfy` | `Vision` | the leader and follower see-through radii and their per-tick step |
| `placement.dfy` | `Placement` | the hammer's and the pick's per-frame decision and how it is written |
| `roof.dfy` | `Roof` | the roof pass: fades, reset batches, firing a batch |
| `roof_properties.dfy` | `RoofProperties` | what the roof pass guarantees |
| `builder.dfy` | `Builder` | the whole builder: construction, events, `Update` per frame, timer firing |
| `builder_properties.dfy` | `BuilderProperties` | the builder's invariant and end-to-end placement properties |

How the model is shaped:

- A frame is a pure function from the builder and a `Frame` to the next
  builder. A `Frame` holds the pointer's world position and button, the party
  positions (the leader first), the leader's body box, and whether each
  check layer has a tile under the pointer.
- The engine's "non-empty tiles within a circle" search is a parameter of
  type `Roof.CircleQuery`. `Math.hypot` is a parameter of type `Roof.Hypot`.
  The model never assumes which cells a circle reaches.
- Opacity is a JavaScript number (`JsNumber.Num`). The fade divides by
  `outer - inner`, and that can be zero. Three cases do it:
  - the leader radius steps from 4 to 2, so the inner radius, 0.5 × 4, equals the new outer radius;
  - the leader radius rests at 0, as it does from construction until the
    leader first stands on a roof tile or build mode is entered, so the
    divisor is 0 − 0.5 × 0;
  - a follower radius is 0.
  Division by zero gives ±Infinity or NaN. `<` against NaN is false.
- A pending reset is a batch id in `Timers.pending`. A tile waiting on one
  carries the id as its fade marker. When a batch fires, only tiles that
  still carry its id are reset. That stands in for the source's timer
  holding references to tile objects: a tile removed since is a detached
  object, and resetting it changes nothing on the map. A tile overwritten
  by the hammer is the same object and keeps its marker, so it is reset.
- `Roof.RoofPass` has two halves. The fade half is `Roof.Faded`. It takes
  this tick's radii (`Roof.Stepped`) as a parameter, so its lemmas hold for
  any radii. The batching half is `Roof.Schedule`. The `RoofProperties`
  lemmas about the whole pass combine a lemma about each half.

## Model

| member | source | states |
|---|---|---|
| JsNumber.Divide | src/client/services/TilemapBuilder.ts:452 | a non-zero denominator gives the finite quotient; a zero one gives ±Infinity by the numerator's sign, or NaN exactly when both are zero |
| JsNumber.LessIsStrictOrder | src/client/services/TilemapBuilder.ts:454-456 | the "only if lower" comparison is irreflexive, asymmetric and transitive, so repeated lowering never cycles |
| JsNumber.NothingBelowNaNOrPosInfinity | src/client/services/TilemapBuilder.ts:481-483 | a NaN or +Infinity fade never passes the "lower than current" test, so it is never written |
| Geometry.CellAt | src/client/services/TilemapBuilder.ts:241 | the cell a world point falls in: the point lies in the cell's half-open 16×16 square |
| Geometry.CornerRoundTrip | src/client/services/TilemapBuilder.ts:241-242 | converting a cell to its top-left corner and back gives the same cell |
| Geometry.Snap | src/client/services/TilemapBuilder.ts:241-242 | the snapped point lies on the 16-pixel grid, at most 16 pixels up and left of the pointer, in the same cell: the top-left corner of the pointer's cell |
| Geometry.SnapIsUnique | src/client/services/TilemapBuilder.ts:241-242 | any grid point at most 16 pixels up and left of the pointer is the snapped corner, so the snap has exactly one possible result |
| Geometry.InReachIsHypotTest | src/client/services/TilemapBuilder.ts:288-292 | the squared-distance reach test agrees with "the hypotenuse is at most 125", for any non-negative length whose square is the squared distance |
| Geometry.OverlapsSymmetricAndStrict | src/client/services/TilemapBuilder.ts:297-300 | the body/cell overlap test is symmetric, and a body that only meets the cell along any one of its four edges does not overlap it |
| Session.InitialUi | src/client/services/TilemapBuilder.ts:106-134 | a new builder is idle, with no tool, no layer, no tile, rotation 0, no cursor tile, and a hidden tool cursor |
| Session.ShowCursorTile | src/client/services/TilemapBuilder.ts:343-345 | showing or hiding the cursor tile has no effect before it is created, and never creates or destroys it |
| Session.Handle | src/client/services/TilemapBuilder.ts:543-613 | field by field, what each configuration event sets. Only the rotations change the rotation, by ±90. Changing or clearing the layer forgets the tile. Exiting build mode hides both cursors. The first tile selection creates the cursor tile. No other event touches the cursors |
| Session.NonRotationEventsIdempotent | src/client/services/TilemapBuilder.ts:579-613 | handling any event other than a rotation twice is the same as handling it once |
| Session.RotationsCancel | src/client/services/TilemapBuilder.ts:566-577 | a right turn then a left turn, in either order, restores the state exactly |
| Session.RightTurnsAccumulate | src/client/services/TilemapBuilder.ts:566-571 | n right turns add 90·n degrees, with no normalisation, and change nothing else |
| Session.LayerChangeForgetsTile | src/client/services/TilemapBuilder.ts:603-606 | any layer change clears the selected tile, and of two changes in a row only the last counts |
| Session.HandleKeepsCursorForSelection | src/client/services/TilemapBuilder.ts:545-565 | every event keeps "a tile is selected implies the cursor tile exists" |
| Vision.Step | src/client/services/TilemapBuilder.ts:369-377 | widening moves each radius up by at most its growth step (3 or 2) and never down; narrowing moves each down by at most its shrink step (2 or 1) and never up |
| Vision.StepKeepsBounds | src/client/services/TilemapBuilder.ts:369-377 | a tick keeps the leader radius in -1..202 and the follower radius in 0..61; widening never lowers either, narrowing never raises either |
| Vision.StepGuards | src/client/services/TilemapBuilder.ts:369-377 | each radius moves exactly when its guard holds (below 200 / 60 to grow, above 0 / 40 to shrink), by exactly 3, 2, 2 or 1 |
| Vision.GrowFromZero | src/client/services/TilemapBuilder.ts:369-373 | from zero, n widening ticks give min(3n, 201) and min(2n, 60) |
| Vision.ShrinkClosedForm | src/client/services/TilemapBuilder.ts:374-377 | n narrowing ticks give max(r − 2n, 0 or −1 by parity) for the leader, and max(p − n, 40) for the follower when above 40, which otherwise stays put |
| Vision.BoundsAreTight | src/client/services/TilemapBuilder.ts:369-377 | 202, 61 and −1 are each reached from a fresh builder |
| Placement.NothingOnOtherLayers | src/client/services/TilemapBuilder.ts:252-257 | the check layers are clear exactly when none of them has a tile under the pointer |
| Placement.CheckBuild | src/client/services/TilemapBuilder.ts:282-336 | both cursors show iff in reach and (floor or roof, or clear of the body). A tile is written iff in reach, pointer down and a layer other than special, even over the body. It has index firstgid + offset, the session's rotation, and collision with the wall set's properties iff on the wall layer clear of the body. On special, one "door" block 16 pixels past the corner |
| Placement.CheckRemove | src/client/services/TilemapBuilder.ts:338-355 | the cursor tile is hidden; the tool shows iff in reach; the pointer's cell of the selected layer is cleared iff in reach, pointer down and a layer is selected |
| Placement.ApplyTouchesOneCell | src/client/services/TilemapBuilder.ts:315-322 | applying a decision changes at most one cell of one layer or appends one special block. A placed tile has the decision's index, rotation and collision; over an occupied cell it keeps the old opacity and fade marker, and keeps the old properties unless it collides. A removed cell is empty; removing from an empty cell is a no-op |
| Roof.FadeAlphaShape | src/client/services/TilemapBuilder.ts:479 | the fade is 0 at the inner radius, 1 at the outer radius, negative inside the inner radius (nothing clamps it), and non-decreasing with distance |
| Roof.LowerOnly | src/client/services/TilemapBuilder.ts:481-483 | the "only if lower" write: the result is the current opacity or the fade, and never above the current opacity |
| Roof.LowerTo | src/client/services/TilemapBuilder.ts:474-485 | a distance fade changes only opacities and leaves tiles outside its circle untouched; a tile in its circle ends at its distance fade exactly when that is strictly lower than its opacity, and keeps its opacity otherwise |
| Roof.FadeFollowers | src/client/services/TilemapBuilder.ts:438-464 | the followers' fades change only opacities (their values: `RoofProperties.FollowersFadeValue`, `RoofProperties.FollowersQuarterCircle`) |
| Roof.BuildPaint | src/client/services/TilemapBuilder.ts:394-432 | build mode's fixed opacities change only opacities |
| Roof.PartyFade | src/client/services/TilemapBuilder.ts:433-491 | the fades outside build mode, followers then leader, change only opacities (their values: `RoofProperties.PartyFadeValue`, `RoofProperties.PartyFadeIsLeast`) |
| Roof.FadeLeader | src/client/services/TilemapBuilder.ts:466-490 | the leader's fade changes only opacities |
| Roof.MarkBatch | src/client/services/TilemapBuilder.ts:529-535 | marking a batch changes only fade markers: exactly the batch's tiles now wait on the given id, every other tile keeps its marker, and no tile's opacity, index, rotation, collision or properties change |
| Roof.RoofPass | src/client/services/TilemapBuilder.ts:360-377 | the pass steps the radii, widening iff the leader stands on a roof tile or build mode is on, and keeps the set of roof cells |
| Roof.SearchedCells | src/client/services/TilemapBuilder.ts:380-392 | a cell is searched exactly when it is an occupied roof cell that the leader's circle or some follower's circle reports, each with this tick's stepped radius |
| Roof.Schedule | src/client/services/TilemapBuilder.ts:493-536 | batching keeps the roof cells, every tile's shape and opacity; a tile of the searched circles that was not waiting now waits on the next id, every other tile keeps its marker; the count goes up by one iff some searched tile was not waiting |
| Roof.Fire | src/client/services/TilemapBuilder.ts:515-524 | firing a batch that is not pending changes nothing; a pending batch is retired and its tiles that still wait on it become opaque and unmarked; every other tile is left as it was, and no tile's shape changes |
| RoofProperties.RoofPassAlpha | src/client/services/TilemapBuilder.ts:493-536 | batching never changes an opacity: the pass's opacities are those of its fade half |
| RoofProperties.BatchAfterFade | src/client/services/TilemapBuilder.ts:493-536 | after a change of opacities only, the untimed tiles are those untimed before it; the batch is queued under the next id with the count up by one, or nothing happens when it is empty; shapes and existing markers are kept and every listed tile ends up waiting |
| RoofProperties.RoofPassMarksSearchedTiles | src/client/services/TilemapBuilder.ts:493-536 | the pass keeps every tile's index, rotation, collision and properties; a waiting tile keeps its batch; every searched tile ends up waiting |
| RoofProperties.RoofPassSchedulesOneBatch | src/client/services/TilemapBuilder.ts:511-536 | the pass's timers are the old ones with one batch queued: the searched tiles that were not waiting before the pass, and nothing when there are none |
| RoofProperties.EnqueueAddsOneBatch | src/client/services/TilemapBuilder.ts:511-528 | queueing an empty batch changes nothing; any other batch is added under an id no pending batch has, every other pending batch is kept, the pending set grows by one and the count goes up by one |
| RoofProperties.RoofPassMarksNewBatch | src/client/services/TilemapBuilder.ts:529-535 | every searched tile that was not waiting before the pass now waits on the batch the pass queued |
| RoofProperties.ScheduleKeepsTimersConsistent | src/client/services/TilemapBuilder.ts:511-536 | scheduling a batch keeps every marker naming a pending batch that lists its tile, and the count equal to the number of pending batches |
| RoofProperties.RoofPassKeepsTimersConsistent | src/client/services/TilemapBuilder.ts:493-536 | after the pass, every marker still names a pending batch that lists its tile, and the count equals the number of pending batches |
| RoofProperties.UntimedUnderAlpha | src/client/services/TilemapBuilder.ts:493-509 | changing opacities alone does not change which tiles count as untimed |
| RoofProperties.ConsistentUnderAlpha | src/client/services/TilemapBuilder.ts:493-536 | changing opacities alone keeps marker consistency with the timers |
| RoofProperties.BuildModeAlphas | src/client/services/TilemapBuilder.ts:394-432 | in build mode a tile in any follower circle ends at 0.5; otherwise a tile in the leader circle ends at 0.5 with the roof layer selected and 0.1 with any other; every other tile keeps its opacity |
| RoofProperties.BuildFadedAlphas | src/client/services/TilemapBuilder.ts:394-432 | the same opacities for build mode's fade half, with any radii |
| RoofProperties.FollowersNeverRaise | src/client/services/TilemapBuilder.ts:438-464 | a tile outside every follower's quarter-radius circle is never made more opaque by the followers' fades |
| RoofProperties.FollowersLeaveOthers | src/client/services/TilemapBuilder.ts:438-464 | a tile outside every follower's circles is left exactly as it was |
| RoofProperties.LeaderFade | src/client/services/TilemapBuilder.ts:466-490 | the leader's inner circle ends at opacity 0; between the inner and outer circles a tile ends at the lower of its opacity and its distance fade, written only when strictly lower; outside both circles nothing changes |
| RoofProperties.LowerAllAppend | src/client/services/TilemapBuilder.ts:438-490 | offering two lists of fades in turn is offering their concatenation |
| RoofProperties.LowerAllIsLeast | src/client/services/TilemapBuilder.ts:438-490 | with finite opacities, a run of "only if lower" writes ends at the least of the starting opacity and every fade offered, and that least value is one of them |
| RoofProperties.LowerAllExamples | src/client/services/TilemapBuilder.ts:454-456 | from opacity 1, fades 0.6 then 0.3 end at 0.3, and 0.6 then 0.8 end at 0.6 |
| RoofProperties.FollowersFadeValue | src/client/services/TilemapBuilder.ts:438-464 | a tile outside every follower's quarter-radius circle ends at its opacity lowered in turn by the fade of each follower whose circle reaches it, from half to all of the follower radius |
| RoofProperties.FollowersQuarterCircle | src/client/services/TilemapBuilder.ts:459-463 | a tile in a follower's quarter-radius circle ends at opacity 0 or below after all the followers' fades |
| RoofProperties.PartyFadeValue | src/client/services/TilemapBuilder.ts:433-491 | a tile in no inner circle ends at its opacity lowered in turn by each follower's fade and then the leader's |
| RoofProperties.PartyFadesListed | src/client/services/TilemapBuilder.ts:438-490 | each follower whose circle reaches the tile, and the leader if the outer circle does, offers its distance fade |
| RoofProperties.PartyFadeIsLeast | src/client/services/TilemapBuilder.ts:433-491 | with finite opacities and fades, a tile in no inner circle ends at the least of its opacity and every fade of a circle reaching it, and at no more than any one of them |
| RoofProperties.PartyFadeQuarterCircle | src/client/services/TilemapBuilder.ts:459-463 | a tile in a follower's quarter-radius circle ends at opacity 0 or below after the fades, whatever the leader does |
| RoofProperties.PartyFadeOnlyLowers | src/client/services/TilemapBuilder.ts:433-491 | a tile in neither the leader's inner circle nor any follower's quarter-radius circle is never made more opaque by the fades |
| RoofProperties.PartyFadeLeaderInner | src/client/services/TilemapBuilder.ts:466-490 | a tile in the leader's inner circle ends at opacity 0, whatever the followers did |
| RoofProperties.PartyFadeLeavesOthers | src/client/services/TilemapBuilder.ts:433-491 | a tile in none of the leader's and followers' circles is left exactly as it was |
| RoofProperties.FadeOnlyLowers | src/client/services/TilemapBuilder.ts:433-491 | outside build mode a tile in no inner circle is never made more opaque by the pass |
| RoofProperties.FadedOnlyLowers | src/client/services/TilemapBuilder.ts:365-491 | the same for the fade half outside build mode with any stepped radii, the leader's inner radius being half the radius before the step |
| RoofProperties.RoofPassFadeValue | src/client/services/TilemapBuilder.ts:360-491 | outside build mode a tile in no inner circle ends at its opacity lowered by each follower's fade over this tick's follower radius, then the leader's from half the radius before the step to the radius after it |
| RoofProperties.FadedValue | src/client/services/TilemapBuilder.ts:365-491 | the same for the fade half outside build mode with any stepped radii |
| RoofProperties.LeaderInnerCircleTransparent | src/client/services/TilemapBuilder.ts:466-490 | outside build mode the leader's inner circle ends fully transparent, whatever the followers did |
| RoofProperties.FadedLeaderInner | src/client/services/TilemapBuilder.ts:365-491 | the same for the fade half outside build mode with any stepped radii |
| RoofProperties.UnreachedTilesKeepAlpha | src/client/services/TilemapBuilder.ts:379-491 | a tile no circle reaches keeps its opacity, in either mode |
| RoofProperties.FadedLeavesOthers | src/client/services/TilemapBuilder.ts:365-491 | outside build mode, with any stepped radii, a tile no circle reaches is left exactly as it was by the fade half |
| RoofProperties.FireResetsExactlyItsTiles | src/client/services/TilemapBuilder.ts:515-524 | firing a pending batch makes exactly the tiles waiting on it opaque and no longer waiting, retires it, lowers the count by one and keeps marker consistency |
| RoofProperties.FiringNewBatchRestores | src/client/services/TilemapBuilder.ts:511-536 | every tile the pass put in its new batch is opaque again once that batch fires |
| RoofProperties.InnerCircleTileLeftUnscheduled | src/client/services/TilemapBuilder.ts:365-377 | a concrete pass where the leader's inner circle (half the old radius) reaches a tile that the stepped searched circle does not: the tile ends transparent with no reset scheduled |
| Builder.Init | src/client/services/TilemapBuilder.ts:106-170 | a new builder is idle with empty layers, zero radii and no timers, and satisfies the builder invariant |
| Builder.HandleEvent | src/client/services/TilemapBuilder.ts:543-613 | a configuration event changes only the session and the cursors |
| Builder.BuildTick | src/client/services/TilemapBuilder.ts:238-273 | the build part of a frame keeps the session, radii, timers and tile sets. A hit on a check layer hides both cursors with no edits; a tool that is neither a loaded hammer nor a pick hides the tool cursor with no edits |
| Builder.RoofTick | src/client/services/TilemapBuilder.ts:274 | the roof pass edits no layer beyond opacities and markers, keeps every existing marker, keeps the session, cursors and special blocks, and steps the radii |
| Builder.Update | src/client/services/TilemapBuilder.ts:237-277 | a frame never changes the session. Idle: no edits, cursors untouched, radii widen iff the leader is on a roof tile. Build mode: radii widen. A hit on a check layer hides both cursors with no edits. A tool that is neither a loaded hammer nor a pick hides the tool cursor with no edits. A pick with no layer, in reach with the pointer down, ends the frame before the roof pass: no layer, radius or timer changes |
| Builder.FireTimer | src/client/services/TilemapBuilder.ts:515-524 | firing a batch edits nothing but roof opacities and markers |
| BuilderProperties.HandleEventKeepsValid | src/client/services/TilemapBuilder.ts:543-613 | configuration events keep the builder invariant |
| BuilderProperties.EditKeepsTimersConsistent | src/client/services/TilemapBuilder.ts:315 | writing a tile with no marker or with the marker the cell already had, or clearing a cell, keeps marker consistency |
| BuilderProperties.BuildTickKeepsValid | src/client/services/TilemapBuilder.ts:238-273 | the build part of a frame keeps the invariant and never touches the session, radii or timers |
| BuilderProperties.UpdateKeepsValid | src/client/services/TilemapBuilder.ts:237-277 | every frame keeps the invariant: cursor tile for a selected tile, radii in bounds, markers consistent with the pending batches and the count |
| BuilderProperties.FireTimerKeepsValid | src/client/services/TilemapBuilder.ts:515-524 | firing a batch keeps the invariant |
| BuilderProperties.HammerCursors | src/client/services/TilemapBuilder.ts:301-308 | with a loaded hammer and clear check layers, both cursors show iff in reach and (floor or roof, or clear of the body) |
| BuilderProperties.HammerPlacesTile | src/client/services/TilemapBuilder.ts:310-320 | a hammer frame in reach with the pointer down leaves the tile in the pointer's cell with index firstgid + offset and the session's rotation, even over the body. It collides iff a wall clear of the body, and then takes the wall set's properties; otherwise it keeps the old tile's properties, or has none in an empty cell. A tile waiting on a batch keeps waiting on it; off the roof, an overwritten tile keeps its opacity and marker and an empty cell gets opacity 1 and no marker. Every other cell of that layer keeps its tile. The other layers and the special blocks are untouched, except that the roof pass may change the roof's opacities and markers while its tiles keep their shape |
| BuilderProperties.HammerOnSpecialTagsOnce | src/client/services/TilemapBuilder.ts:321-336 | on the special layer no layer is edited. In reach with the pointer down exactly one "door" block is appended, 16 pixels past the snapped corner; otherwise none is |
| BuilderProperties.PickRemovesTile | src/client/services/TilemapBuilder.ts:338-355 | a pick frame hides the cursor tile and shows the tool iff in reach. It clears the pointer's cell of the selected layer iff in reach and down. Every other cell of that layer and every other layer keeps its tiles, the roof's keeping their shape through the roof pass |
| BuilderProperties.WallPlacementScenario | src/client/services/TilemapBuilder.ts:310-320 | select wall and the tile at offset 4, turn right twice, and build at (150, 100) beside a leader at (100, 100): cell (9, 6) holds firstgid + 4 at 180 degrees, colliding |
| BuilderProperties.FireUnknownBatchIsNoOp | src/client/services/TilemapBuilder.ts:515-524 | firing a batch that is not pending changes nothing |

### Behaviour worth knowing

- **Walls over the player.** A wall tile is written even when it overlaps
  the leader's body. Only its collision and properties depend on the
  overlap (lines 310-320).
- **Radius overshoot.** The growth guard is "below 200, then add 3", so the
  leader radius reaches 201 from zero and 202 from an odd value. The
  follower radius reaches 61 the same way. After N widening ticks from zero
  the leader radius is min(3N, 201). Shrinking from an odd
  radius stops at −1.
- **Why the radii widen.** They widen in build mode whatever layer is
  selected (line 369).
- **Leader inner radius.** It is half the radius from *before* this tick's
  step (line 365 precedes lines 369-377). When the leader radius steps from
  117 to 120, the inner radius is 58.5.
- **No clamping.** The builder never clamps a fade. Inside the inner radius
  it is negative, and the model's opacity stays negative if the inner circle
  search does not report the tile. A zero denominator gives ±Infinity or NaN.
- **Which tiles are scheduled.** A reset batch holds every untimed tile of
  the stepped leader circle and the follower circles (lines 493-509). An
  inner-circle tile outside those circles is never scheduled (`RoofProperties.InnerCircleTileLeftUnscheduled`).
- **Raising opacity.** "Only lowered" holds for the distance fades alone.
  The inner circles set 0, which raises the model's opacity from a negative
  fade. In build mode the
  followers' 0.5 is written unconditionally after the leader's 0.1.
- **Timers firing on removed tiles.** A timer that fires after its tile was
  removed resets the detached tile object, not the map. The model leaves
  the map unchanged for such a tile. A tile the hammer overwrote is still
  the object on the map, keeps its marker, and is reset.

## Left out

- Rendering: sprite textures, depths (`setUpperDepth`, `setLowerDepth`, `setCursorDepth`, layer depths), tweens (hammering, cursor pulsing), cursor positions on screen, and the cursor tile's own rotation. None of it affects the map or the radii.
- `createLayers` and `addCollisionToPlayer` are engine set-up. The tile sets are an input of `Builder.Init`, and collision against players is the physics engine's.
- `positionToCamera` and the pointer button state are engine input, so they are fields of `Builder.Frame`.
- `getTilesWithinShape` and `Math.hypot` are parameters (`Roof.CircleQuery`, `Roof.Hypot`) because they are engine and runtime code.
- The special block's physics sprite, its data store, and `BuildingTags.applyTag` are left out. `BuildingTags` is not part of this model. The model records the block's position, frame, 48-pixel body size and the tag name "door".
- `SignalManager` wiring (`createListeners` binding, `clearListeners`, the "newTilemapBuilder" emit) is event plumbing. `Session.Handle` models what each handler does.
- The 17 ms delay and the order in which timers fire are left out. Firing is an explicit `Builder.FireTimer` call by batch id, in any order.
- The module-level `numTimers` counter is shared by every builder instance. The model gives each builder its own count.
- The engine's tile-opacity setter clamps to [0, 1]; the model stores the builder's unclamped value. Every stored opacity is at most 1, and clamping is monotone, so after each "only if lower" write the clamp of the model's opacity is the engine's opacity, and every ordering stated here carries over.
- Floating-point rounding is left out. Coordinates and opacities are exact reals.
- Rotation is stored in degrees. The conversion to radians on the tile is left out.
- The crash paths are modelled as follows:
  - The pick with no layer selected, in reach with the pointer down, indexes an undefined layer and throws (line 353). That frame ends there: `Builder.FrameThrows` marks it, and `Builder.Update` skips the roof pass for it. The pick's cursor changes before the throw are kept.
  - Layers are unbounded maps from cell to tile. The map's edges are left out, so a hammer write outside the map, where the engine returns no tile and line 316 throws before the roof pass, is modelled as a normal write followed by the pass.
  - Layer names outside the four are unrepresentable, since `Layer` has four values.
  - A frame with an empty party would throw on `party[0]`. Every member taking a frame requires at least one party member.
- Placing over an occupied cell is modelled as the engine does it: the existing tile object is kept and its index, rotation and (for a wall clear of the body) collision and properties are set, so its opacity and fade marker survive (`Placement.Placed`). The engine's collision reset on placement follows the layer's collision indexes; the builder never sets any, so a placed tile that is not a wall clear of the body does not collide.
- Roof.FadeFollowers: its own contract states only that opacities change. The opacity each tile ends at is stated by `RoofProperties.FollowersFadeValue` and `RoofProperties.FollowersQuarterCircle`.
- Roof.PartyFade: its own contract states only that opacities change. The opacity each tile ends at is stated by `RoofProperties.PartyFadeValue`, `RoofProperties.PartyFadeIsLeast`, `RoofProperties.PartyFadeLeaderInner` and `RoofProperties.PartyFadeQuarterCircle`.
- `CharacterSheet` (both files) and `Hud` are display widgets with no building logic, so they are not part of this model.

=== FILE: builder.dfy ===
/** The tilemap builder: the session, the four layers, the see-through
    radii and the reset timers, driven by configuration events, one
    `Update` per frame and the firing of reset batches. */
module Builder {
  import opened Wrappers
  import opened Geometry
  import opened JsNumber
  import opened Layers
  import opened Session
  import opened Vision
  import opened Placement
  import opened Roof
  import opened RoofProperties

  /** `specials` lists the special blocks created so far, oldest first. */
  datatype Builder = Builder(
    ui: Ui,
    layers: PerLayer<Grid>,
    tileSets: PerLayer<TileSet>,
    vision: Vision,
    timers: Timers,
    specials: seq<SpecialBlock>)

  /** One frame's inputs: the pointer's world position and button, the
      party's positions (the leader first), the leader's body box, and for
      each extra layer to check whether it has a tile under the pointer. */
  datatype Frame = Frame(
    pointer: Point,
    pointerDown: bool,
    party: seq<Point>,
    leaderBody: Box,
    checkHits: seq<bool>)

  /** The state the builder keeps across events, frames and timers. */
  predicate Valid(b: Builder) {
    && CursorForSelection(b.ui)
    && InBounds(b.vision)
    && TimersConsistent(b.layers.roof, b.timers)
  }

  /** A freshly constructed builder over the given tile sets: empty
      layers, idle session, zero radii, no timers. */
  function Init(sets: PerLayer<TileSet>): (b: Builder)
    ensures Valid(b)
    ensures !b.ui.session.buildMode && b.vision == Vision(0, 0) && b.timers.numTimers == 0
    ensures forall l: Layer :: b.layers.Get(l) == map[]
  {
    Builder(InitialUi(), PerLayer(map[], map[], map[], map[]), sets, Vision(0, 0), Timers(map[], 0, 0), [])
  }

  /** A configuration event: only the session and the cursors change. */
  function HandleEvent(b: Builder, e: Event): (r: Builder)
    ensures r.(ui := b.ui) == b
  {
    b.(ui := Handle(b.ui, e))
  }

  /** No layer was edited: floor, wall and special are identical, and the
      roof differs at most in opacities and fade markers. */
  predicate NoEdits(a: PerLayer<Grid>, b: PerLayer<Grid>) {
    a.floor == b.floor && a.wall == b.wall && a.special == b.special && SameShapes(a.roof, b.roof)
  }

  /** Shows the cursors as decided and applies the decision's write. */
  function Commit(b: Builder, d: Decision): Builder {
    var (ls, sp) := Apply(b.layers, b.specials, d.action);
    b.(ui := b.ui.(cursors := Cursors(ShowCursorTile(b.ui.cursors.tile, d.showCursorTile), d.showTool)),
       layers := ls, specials := sp)
  }

  /** The build-mode part of a frame: both cursors hidden when a check
      layer has a tile under the pointer; otherwise the hammer (with a tile
      selected) builds, the pick removes, and any other tool hides the tool
      cursor. */
  function BuildTick(b: Builder, f: Frame): (r: Builder)
    requires |f.party| >= 1
    ensures r.ui.session == b.ui.session && r.vision == b.vision && r.timers == b.timers && r.tileSets == b.tileSets
    ensures r.ui.cursors.tile.Created? <==> b.ui.cursors.tile.Created?
    ensures !NothingOnOtherLayers(f.checkHits) ==>
      r.layers == b.layers && r.specials == b.specials && !r.ui.cursors.toolVisible && !CursorTileVisible(r.ui.cursors)
    ensures NothingOnOtherLayers(f.checkHits) && b.ui.session.tool != Pick
            && !(b.ui.session.tool == Hammer && b.ui.session.current.Some?) ==>
      r.layers == b.layers && r.specials == b.specials && !r.ui.cursors.toolVisible
  {
    var s := b.ui.session;
    var cursors := b.ui.cursors;
    if !NothingOnOtherLayers(f.checkHits) then
      b.(ui := b.ui.(cursors := Cursors(ShowCursorTile(cursors.tile, false), false)))
    else if s.tool == Hammer && s.current.Some? then
      Commit(b, CheckBuild(f.party[0], f.leaderBody, f.pointer, f.pointerDown, s.layer, s.rotation,
                           s.current.value, b.tileSets))
    else if s.tool == Pick then
      Commit(b, CheckRemove(f.party[0], f.pointer, f.pointerDown, s.layer))
    else
      b.(ui := b.ui.(cursors := cursors.(toolVisible := false)))
  }

  /** The roof pass on the builder's roof layer. */
  function RoofTick(b: Builder, party: seq<Point>, q: CircleQuery, h: Hypot): (r: Builder)
    requires |party| >= 1
    ensures r.ui == b.ui && r.specials == b.specials && r.tileSets == b.tileSets
    ensures NoEdits(b.layers, r.layers)
    ensures forall c | c in b.layers.roof && b.layers.roof[c].fadeTimer.Some? ::
      r.layers.roof[c].fadeTimer == b.layers.roof[c].fadeTimer
    ensures r.vision == Step(b.vision, CellAt(party[0]) in b.layers.roof || b.ui.session.buildMode)
  {
    var rs := RoofPass(RoofState(b.layers.roof, b.timers, b.vision), b.ui.session.buildMode,
                       b.ui.session.layer == Some(Roof), party, q, h);
    RoofPassMarksSearchedTiles(RoofState(b.layers.roof, b.timers, b.vision), b.ui.session.buildMode,
                               b.ui.session.layer == Some(Roof), party, q, h);
    b.(layers := b.layers.(roof := rs.grid), vision := rs.vision, timers := rs.timers)
  }

  /** The pick with no layer selected, nothing on the check layers, in
      reach with the pointer down: the source removes from a layer that
      does not exist, which throws and ends the frame before the roof pass. */
  predicate FrameThrows(b: Builder, f: Frame)
    requires |f.party| >= 1
  {
    && b.ui.session.buildMode && NothingOnOtherLayers(f.checkHits)
    && b.ui.session.tool == Pick && b.ui.session.layer.None?
    && f.pointerDown && InReach(f.party[0], Snap(f.pointer))
  }

  /** One frame. Outside build mode nothing is placed or removed and the
      cursors are left alone; in build mode with a tile on a check layer
      under the pointer both cursors are hidden and nothing is placed or
      removed; with neither a hammer holding a tile nor a pick, the tool
      cursor is hidden and nothing is written. The session never changes.
      The roof pass runs unless the frame throws: the radii widen in build
      mode and otherwise exactly when the leader stands on a roof tile. A
      frame that throws keeps the cursors it set and changes nothing else. */
  function Update(b: Builder, f: Frame, q: CircleQuery, h: Hypot): (r: Builder)
    requires |f.party| >= 1
    ensures r.ui.session == b.ui.session && r.tileSets == b.tileSets
    ensures !b.ui.session.buildMode ==>
      r.ui == b.ui && r.specials == b.specials && NoEdits(b.layers, r.layers)
      && r.vision == Step(b.vision, CellAt(f.party[0]) in b.layers.roof)
    ensures b.ui.session.buildMode && !FrameThrows(b, f) ==> r.vision == Step(b.vision, true)
    ensures FrameThrows(b, f) ==>
      r.layers == b.layers && r.specials == b.specials && r.vision == b.vision && r.timers == b.timers
      && !CursorTileVisible(r.ui.cursors) && r.ui.cursors.toolVisible
    ensures b.ui.session.buildMode && !NothingOnOtherLayers(f.checkHits) ==>
      !r.ui.cursors.toolVisible && !CursorTileVisible(r.ui.cursors)
      && r.specials == b.specials && NoEdits(b.layers, r.layers)
    ensures (&& b.ui.session.buildMode && NothingOnOtherLayers(f.checkHits) && b.ui.session.tool != Pick
             && !(b.ui.session.tool == Hammer && b.ui.session.current.Some?)) ==>
      !r.ui.cursors.toolVisible && r.specials == b.specials && NoEdits(b.layers, r.layers)
  {
    var b1 := if b.ui.session.buildMode then BuildTick(b, f) else b;
    if FrameThrows(b, f) then b1 else RoofTick(b1, f.party, q, h)
  }

  /** Firing reset batch `id`. */
  function FireTimer(b: Builder, id: nat): (r: Builder)
    ensures r.ui == b.ui && r.specials == b.specials && r.vision == b.vision
    ensures NoEdits(b.layers, r.layers)
  {
    var (g, t) := Fire(b.layers.roof, b.timers, id);
    b.(layers := b.layers.(roof := g), timers := t)
  }
}

=== FILE: builder_properties.dfy ===
/** What the builder guarantees across events, frames and timers. */
module BuilderProperties {
  import opened Wrappers
  import opened Geometry
  import opened JsNumber
  import opened Layers
  import opened Session
  import opened Vision
  import opened Placement
  import opened Roof
  import opened RoofProperties
  import opened Builder

  /** Configuration events keep the builder's invariant. */
  lemma HandleEventKeepsValid(b: Builder, e: Event)
    requires Valid(b)
    ensures Valid(HandleEvent(b, e))
  {
    HandleKeepsCursorForSelection(b.ui, e);
  }

  /** Writing a tile that carries no marker or the cell's own marker, or
      clearing a cell, keeps the markers consistent with the pending batches. */
  lemma EditKeepsTimersConsistent(g: Grid, t: Timers, c: Cell, tile: Tile)
    requires TimersConsistent(g, t)
    requires tile.fadeTimer.None? || (c in g && tile.fadeTimer == g[c].fadeTimer)
    ensures TimersConsistent(g[c := tile], t)
    ensures TimersConsistent(g - {c}, t)
  {
  }

  /** The build-mode part of a frame never changes the session, the radii or
      the timers, keeps the cursor tile's existence, and keeps the markers
      consistent. */
  lemma BuildTickKeepsValid(b: Builder, f: Frame)
    requires |f.party| >= 1 && Valid(b)
    ensures var r := BuildTick(b, f);
      && r.ui.session == b.ui.session && r.vision == b.vision && r.timers == b.timers
      && (r.ui.cursors.tile.Created? <==> b.ui.cursors.tile.Created?)
      && Valid(r)
  {
    var s := b.ui.session;
    if NothingOnOtherLayers(f.checkHits) {
      var d :=
        if s.tool == Hammer && s.current.Some? then
          CheckBuild(f.party[0], f.leaderBody, f.pointer, f.pointerDown, s.layer, s.rotation, s.current.value, b.tileSets)
        else CheckRemove(f.party[0], f.pointer, f.pointerDown, s.layer);
      if (s.tool == Hammer && s.current.Some?) || s.tool == Pick {
        assert BuildTick(b, f) == Commit(b, d);
        match d.action
        case PutTile(l, c, tile) =>
          EditKeepsTimersConsistent(b.layers.roof, b.timers, c, Placed(b.layers.roof, c, tile));
        case RemoveTile(l, c) =>
          EditKeepsTimersConsistent(b.layers.roof, b.timers, c, NewTile(0, 0, false, None));
        case _ =>
      }
    }
  }

  /** Frames keep the builder's invariant: the cursor tile exists whenever a
      tile is selected, the radii stay within -1..202 and 0..61, and every
      fade marker names a pending batch while the timer count equals the
      number of pending batches. */
  lemma UpdateKeepsValid(b: Builder, f: Frame, q: CircleQuery, h: Hypot)
    requires |f.party| >= 1 && Valid(b)
    ensures Valid(Update(b, f, q, h))
  {
    var b1 := if b.ui.session.buildMode then BuildTick(b, f) else b;
    if b.ui.session.buildMode {
      BuildTickKeepsValid(b, f);
    }
    if FrameThrows(b, f) {
      return;
    }
    StepKeepsBounds(b1.vision, CellAt(f.party[0]) in b1.layers.roof || b1.ui.session.buildMode);
    RoofPassKeepsTimersConsistent(RoofState(b1.layers.roof, b1.timers, b1.vision), b1.ui.session.buildMode,
                                  b1.ui.session.layer == Some(Roof), f.party, q, h);
  }

  /** Firing a timer keeps the builder's invariant. */
  lemma FireTimerKeepsValid(b: Builder, id: nat)
    requires Valid(b)
    ensures Valid(FireTimer(b, id))
  {
    if id in b.timers.pending {
      FireResetsExactlyItsTiles(b.layers.roof, b.timers, id);
    }
  }

  /** The hammer with a tile selected and nothing on the check layers: both
      cursors show exactly when the snapped cell is within reach of the
      leader and either the layer is floor or roof or the cell does not
      overlap the leader's body. */
  lemma HammerCursors(b: Builder, f: Frame, q: CircleQuery, h: Hypot)
    requires |f.party| >= 1 && Valid(b)
    requires var s := b.ui.session;
      s.buildMode && s.tool == Hammer && s.current.Some? && NothingOnOtherLayers(f.checkHits)
    ensures var r := Update(b, f, q, h);
      var show := InReach(f.party[0], Snap(f.pointer))
        && (MayCoverPlayer(b.ui.session.layer) || !Overlaps(f.leaderBody, CellBox(Snap(f.pointer))));
      r.ui.cursors.toolVisible == show && CursorTileVisible(r.ui.cursors) == show
  {
  }

  /** The hammer on floor, wall or roof, within reach with the pointer down:
      the pointer's cell of the selected layer holds a tile whose index is
      the layer's first global index plus the selected tile's offset and
      whose rotation is the session's, whether or not it covers the player;
      it collides exactly when the layer is wall and the cell is clear of the
      leader's body, and only then takes the tile set's properties. A tile
      that was there keeps its fade marker, so a roof tile waiting on a reset
      still waits on it, and off the roof it also keeps its opacity; an empty
      cell gets an opaque tile with no marker. Every other cell keeps its
      tile, the roof's tiles keeping their shape through the roof pass; no
      other layer is edited and no special block is made. */
  lemma HammerPlacesTile(b: Builder, f: Frame, q: CircleQuery, h: Hypot)
    requires |f.party| >= 1
    requires var s := b.ui.session;
      && s.buildMode && s.tool == Hammer && s.current.Some? && s.layer.Some? && s.layer.value != Special
      && NothingOnOtherLayers(f.checkHits) && f.pointerDown && InReach(f.party[0], Snap(f.pointer))
    ensures var s := b.ui.session;
      var r := Update(b, f, q, h);
      var l := s.layer.value;
      var c := CellAt(f.pointer);
      && c in r.layers.Get(l)
      && r.layers.Get(l)[c].index == b.tileSets.Get(l).firstgid + s.current.value.tileSetOffset
      && r.layers.Get(l)[c].rotation == s.rotation
      && (r.layers.Get(l)[c].collides <==> l == Wall && !Overlaps(f.leaderBody, CellBox(Snap(f.pointer))))
      && r.layers.Get(l)[c].properties ==
           (if r.layers.Get(l)[c].collides then b.tileSets.Get(Wall).PropertiesOf(r.layers.Get(l)[c].index)
            else if c in b.layers.Get(l) then b.layers.Get(l)[c].properties else None)
      && (c in b.layers.Get(l) && b.layers.Get(l)[c].fadeTimer.Some? ==>
            r.layers.Get(l)[c].fadeTimer == b.layers.Get(l)[c].fadeTimer)
      && (l != Roof && c in b.layers.Get(l) ==>
            r.layers.Get(l)[c].alpha == b.layers.Get(l)[c].alpha && r.layers.Get(l)[c].fadeTimer == b.layers.Get(l)[c].fadeTimer)
      && (l != Roof && c !in b.layers.Get(l) ==>
            r.layers.Get(l)[c].alpha == Finite(1.0) && r.layers.Get(l)[c].fadeTimer.None?)
      && (forall d | d != c :: d in r.layers.Get(l) <==> d in b.layers.Get(l))
      && (l != Roof ==> forall d | d != c && d in b.layers.Get(l) :: r.layers.Get(l)[d] == b.layers.Get(l)[d])
      && (l == Roof ==> forall d | d != c && d in b.layers.roof :: SameShape(b.layers.roof[d], r.layers.roof[d]))
      && (l != Roof ==> SameShapes(b.layers.roof, r.layers.roof))
      && (forall k: Layer | k != l && k != Roof :: r.layers.Get(k) == b.layers.Get(k))
      && r.specials == b.specials
  {
    hide RoofTick;
    var s := b.ui.session;
    var d := CheckBuild(f.party[0], f.leaderBody, f.pointer, f.pointerDown, s.layer, s.rotation, s.current.value, b.tileSets);
    var b1 := BuildTick(b, f);
    assert b1 == Commit(b, d);
    ApplyTouchesOneCell(b.layers, b.specials, d.action);
    var r := Update(b, f, q, h);
    assert r == RoofTick(b1, f.party, q, h);
    var c := CellAt(f.pointer);
    if s.layer.value == Roof {
      assert SameShape(b1.layers.roof[c], r.layers.roof[c]);
    }
  }

  /** The hammer on the special layer: no layer is edited; within reach
      with the pointer down exactly one special block is created, tagged
      "door", two half-cells past the snapped corner, and otherwise none. */
  lemma HammerOnSpecialTagsOnce(b: Builder, f: Frame, q: CircleQuery, h: Hypot)
    requires |f.party| >= 1
    requires var s := b.ui.session;
      && s.buildMode && s.tool == Hammer && s.current.Some? && s.layer == Some(Special)
      && NothingOnOtherLayers(f.checkHits)
    ensures var r := Update(b, f, q, h);
      && NoEdits(b.layers, r.layers)
      && (!(f.pointerDown && InReach(f.party[0], Snap(f.pointer))) ==> r.specials == b.specials)
      && (f.pointerDown && InReach(f.party[0], Snap(f.pointer)) ==>
            && |r.specials| == |b.specials| + 1
            && r.specials[..|b.specials|] == b.specials
            && r.specials[|b.specials|].tag == SpecialTag
            && r.specials[|b.specials|].frame == b.ui.session.current.value.tileSetOffset
            && r.specials[|b.specials|].position == Point(Snap(f.pointer).x + TileSize, Snap(f.pointer).y + TileSize))
  {
    var s := b.ui.session;
    var d := CheckBuild(f.party[0], f.leaderBody, f.pointer, f.pointerDown, s.layer, s.rotation, s.current.value, b.tileSets);
    assert BuildTick(b, f) == Commit(b, d);
  }

  /** The pick with a layer selected and nothing on the check layers: the
      cursor tile is hidden, the tool cursor shows exactly when the snapped
      cell is in reach (the player's body does not matter), and the pointer's
      cell of the selected layer is cleared exactly when in reach with the
      pointer down. Other cells and the other layers keep their tiles, the
      roof's tiles keeping their shape through the roof pass. */
  lemma PickRemovesTile(b: Builder, f: Frame, q: CircleQuery, h: Hypot)
    requires |f.party| >= 1
    requires var s := b.ui.session;
      s.buildMode && s.tool == Pick && s.layer.Some? && NothingOnOtherLayers(f.checkHits)
    ensures var r := Update(b, f, q, h);
      var l := b.ui.session.layer.value;
      var c := CellAt(f.pointer);
      var clears := InReach(f.party[0], Snap(f.pointer)) && f.pointerDown;
      && !CursorTileVisible(r.ui.cursors)
      && r.ui.cursors.toolVisible == InReach(f.party[0], Snap(f.pointer))
      && (clears ==> c !in r.layers.Get(l))
      && (!clears ==> NoEdits(b.layers, r.layers))
      && (forall d | d != c :: d in r.layers.Get(l) <==> d in b.layers.Get(l))
      && (l != Roof ==> forall d | d != c && d in b.layers.Get(l) :: r.layers.Get(l)[d] == b.layers.Get(l)[d])
      && (l == Roof ==> forall d | d != c && d in b.layers.roof :: SameShape(b.layers.roof[d], r.layers.roof[d]))
      && (l != Roof ==> SameShapes(b.layers.roof, r.layers.roof))
      && (forall k: Layer | k != l && k != Roof :: r.layers.Get(k) == b.layers.Get(k))
      && r.specials == b.specials
  {
    hide RoofTick;
    var s := b.ui.session;
    var d := CheckRemove(f.party[0], f.pointer, f.pointerDown, s.layer);
    var b1 := BuildTick(b, f);
    assert b1 == Commit(b, d);
    ApplyTouchesOneCell(b.layers, b.specials, d.action);
  }

  /** Select the wall layer and the wall tile at offset 4, turn right
      twice and build within reach with the pointer down: the wall cell
      under the pointer holds tile set index firstgid + 4 at 180 degrees,
      and it collides because the cell is clear of the leader. */
  lemma WallPlacementScenario(sets: PerLayer<TileSet>, q: CircleQuery, h: Hypot)
    ensures var b0 := Init(sets);
      var b1 := HandleEvent(HandleEvent(HandleEvent(b0, EnterBuildMode), HammerSelected), LayerChanged(Wall));
      var b2 := HandleEvent(b1, NewTileSelected(TileData("wallTiles", 4)));
      var b3 := HandleEvent(HandleEvent(b2, RotateRight), RotateRight);
      var leader := Point(100.0, 100.0);
      var f := Frame(Point(150.0, 100.0), true, [leader], Box(92.0, 92.0, 108.0, 108.0), []);
      var r := Update(b3, f, q, h);
      && Cell(9, 6) in r.layers.wall
      && r.layers.wall[Cell(9, 6)].index == sets.wall.firstgid + 4
      && r.layers.wall[Cell(9, 6)].rotation == 180
      && r.layers.wall[Cell(9, 6)].collides
  {
    hide Update;
    var b0 := Init(sets);
    var b1 := HandleEvent(HandleEvent(HandleEvent(b0, EnterBuildMode), HammerSelected), LayerChanged(Wall));
    var b2 := HandleEvent(b1, NewTileSelected(TileData("wallTiles", 4)));
    var b3 := HandleEvent(HandleEvent(b2, RotateRight), RotateRight);
    assert b3.ui.session == Session(true, Hammer, Some(Wall), Some(TileData("wallTiles", 4)), 180);
    var f := Frame(Point(150.0, 100.0), true, [Point(100.0, 100.0)], Box(92.0, 92.0, 108.0, 108.0), []);
    assert CellAt(f.pointer) == Cell(9, 6);
    assert Snap(f.pointer) == Point(144.0, 96.0);
    assert InReach(f.party[0], Snap(f.pointer));
    HammerPlacesTile(b3, f, q, h);
  }

  /** Firing a reset batch that is not pending changes nothing. */
  lemma FireUnknownBatchIsNoOp(b: Builder, id: nat)
    requires id !in b.timers.pending
    ensures FireTimer(b, id) == b
  {
  }
}

=== FILE: geometry.dfy ===
/** World and tile coordinates of the building layers: a uniform grid of
    16-pixel cells with its origin at the world origin, and the two
    geometric tests the builder applies (reach and box overlap). */
module Geometry {

  /** Width and height of a grid cell in world pixels. */
  const TileSize: real := 16.0
  /** How far from the party leader the builder can reach, in pixels. */
  const BuildReach: real := 125.0

  datatype Point = Point(x: real, y: real)

  /** A grid cell, by column and row. */
  datatype Cell = Cell(col: int, row: int)

  /** An axis-aligned box by its four edges. */
  datatype Box = Box(left: real, top: real, right: real, bottom: real)

  /** The cell that contains a world point (world-to-tile with snapping down). */
  function CellAt(p: Point): (c: Cell)
    ensures c.col as real * TileSize <= p.x < (c.col + 1) as real * TileSize
    ensures c.row as real * TileSize <= p.y < (c.row + 1) as real * TileSize
  {
    Cell((p.x / TileSize).Floor, (p.y / TileSize).Floor)
  }

  /** The world position of a cell's top-left corner (tile-to-world). */
  function Corner(c: Cell): Point {
    Point(c.col as real * TileSize, c.row as real * TileSize)
  }

  /** The world position of a cell's centre. */
  function Centre(c: Cell): Point {
    Point(c.col as real * TileSize + TileSize / 2.0, c.row as real * TileSize + TileSize / 2.0)
  }

  /** Converting a cell to world coordinates and back gives the same cell,
      so writing "at the world position of a cell's corner" writes that cell. */
  lemma CornerRoundTrip(c: Cell)
    ensures CellAt(Corner(c)) == c
  {
    var p := Corner(c);
    assert p.x / TileSize == c.col as real;
    assert p.y / TileSize == c.row as real;
  }

  /** A pointer position snapped to the top-left corner of its cell: a point
      on the 16-pixel grid, at most one cell up and left of the pointer, in
      the same cell. */
  function Snap(p: Point): (q: Point)
    ensures q.x / TileSize == (q.x / TileSize).Floor as real
    ensures q.y / TileSize == (q.y / TileSize).Floor as real
    ensures q.x <= p.x < q.x + TileSize
    ensures q.y <= p.y < q.y + TileSize
    ensures CellAt(q) == CellAt(p)
  {
    CornerRoundTrip(CellAt(p));
    Corner(CellAt(p))
  }

  /** Only one grid point lies at most one cell up and left of a pointer, so
      the snapped corner is the only candidate. */
  lemma SnapIsUnique(p: Point, q: Point)
    requires q.x / TileSize == (q.x / TileSize).Floor as real
    requires q.y / TileSize == (q.y / TileSize).Floor as real
    requires q.x <= p.x < q.x + TileSize
    requires q.y <= p.y < q.y + TileSize
    ensures q == Snap(p)
  {
    var s := Snap(p);
    GridPointsApart(q.x, s.x, p.x);
    GridPointsApart(q.y, s.y, p.y);
  }

  /** Two grid coordinates that both lie within one cell below `v` are equal. */
  lemma GridPointsApart(a: real, b: real, v: real)
    requires a / TileSize == (a / TileSize).Floor as real
    requires b / TileSize == (b / TileSize).Floor as real
    requires a <= v < a + TileSize && b <= v < b + TileSize
    ensures a == b
  {
    var m, n := (a / TileSize).Floor, (b / TileSize).Floor;
    assert a == m as real * TileSize;
    assert b == n as real * TileSize;
    assert (m - n) as real * TileSize < TileSize && (n - m) as real * TileSize < TileSize;
  }

  function SquaredDistance(a: Point, b: Point): real {
    (a.x - b.x) * (a.x - b.x) + (a.y - b.y) * (a.y - b.y)
  }

  /** The target is within the builder's reach of the leader. */
  predicate InReach(leader: Point, target: Point) {
    SquaredDistance(leader, target) <= BuildReach * BuildReach
  }

  /** `InReach` is the test `!(hypot(dx, dy) > 125)`: for the Euclidean
      length h of the leader-to-target vector, the target is in reach
      exactly when h is at most 125, so a distance of exactly 125 passes. */
  lemma InReachIsHypotTest(leader: Point, target: Point, h: real)
    requires 0.0 <= h && h * h == SquaredDistance(leader, target)
    ensures InReach(leader, target) <==> h <= BuildReach
  {
    if h <= BuildReach {
      assert h * h <= h * BuildReach <= BuildReach * BuildReach;
    } else {
      assert h * h > h * BuildReach > BuildReach * BuildReach;
    }
  }

  /** The box covered by the cell whose corner is given. */
  function CellBox(corner: Point): Box {
    Box(corner.x, corner.y, corner.x + TileSize, corner.y + TileSize)
  }

  /** Rectangle overlap as the physics engine tests it: strict on every
      edge, so boxes that only share an edge do not overlap. */
  predicate Overlaps(a: Box, b: Box) {
    a.left < b.right && a.right > b.left && a.top < b.bottom && a.bottom > b.top
  }

  /** Overlap does not depend on the order of the boxes, and a box that
      only meets the cell along one of its four edges does not overlap it. */
  lemma OverlapsSymmetricAndStrict(a: Box, corner: Point)
    ensures Overlaps(a, CellBox(corner)) <==> Overlaps(CellBox(corner), a)
    ensures a.right == corner.x ==> !Overlaps(a, CellBox(corner))
    ensures a.bottom == corner.y ==> !Overlaps(a, CellBox(corner))
    ensures a.left == corner.x + TileSize ==> !Overlaps(a, CellBox(corner))
    ensures a.top == corner.y + TileSize ==> !Overlaps(a, CellBox(corner))
  {
  }
}

=== FILE: js_number.dfy ===
/** The slice of JavaScript number semantics the roof fade depends on.
    Rounding is not modelled: a finite number is an exact real. The fade
    formulas can divide by zero, so the infinities and NaN are kept. */
module JsNumber {

  datatype Num = Finite(value: real) | PosInfinity | NegInfinity | NaN

  /** IEEE 754 division of two finite numbers. The only zero divisor the
      fade formulas can produce is `x - x`, which is +0, so a zero divisor
      is taken to be +0. */
  function Divide(n: real, d: real): (q: Num)
    ensures d != 0.0 ==> q.Finite? && q.value * d == n
    ensures d == 0.0 ==> !q.Finite?
    ensures d == 0.0 && n > 0.0 ==> q == PosInfinity
    ensures d == 0.0 && n < 0.0 ==> q == NegInfinity
    ensures q.NaN? <==> d == 0.0 && n == 0.0
  {
    if d != 0.0 then Finite(n / d)
    else if n > 0.0 then PosInfinity
    else if n < 0.0 then NegInfinity
    else NaN
  }

  /** JavaScript `a < b`: false as soon as either side is NaN. */
  predicate Less(a: Num, b: Num) {
    if a.NaN? || b.NaN? then false
    else if a.Finite? && b.Finite? then a.value < b.value
    else (a.NegInfinity? && !b.NegInfinity?) || (b.PosInfinity? && !a.PosInfinity?)
  }

  /** `a` is `b` or strictly below it. */
  predicate AtMost(a: Num, b: Num) {
    a == b || Less(a, b)
  }

  /** `<` is a strict order: irreflexive and transitive, so repeated
      "lower only" writes never climb back up. */
  lemma LessIsStrictOrder(a: Num, b: Num, c: Num)
    ensures !Less(a, a)
    ensures Less(a, b) ==> !Less(b, a)
    ensures Less(a, b) && Less(b, c) ==> Less(a, c)
    ensures AtMost(a, b) && AtMost(b, c) ==> AtMost(a, c)
  {
  }

  /** NaN and +Infinity are never strictly below anything, so a quotient
      that came out as either is never written by a "lower only" rule. */
  lemma NothingBelowNaNOrPosInfinity(q: Num, b: Num)
    requires q.NaN? || q.PosInfinity?
    ensures !Less(q, b)
  {
  }
}

=== FILE: layers.dfy ===
/** The four building layers, their tile sets and their sparse tile grids. */
module Layers {
  import opened Wrappers
  import opened Geometry
  import opened JsNumber

  datatype Layer = Floor | Wall | Roof | Special

  /** One value per building layer. */
  datatype PerLayer<T> = PerLayer(floor: T, wall: T, roof: T, special: T) {

    function Get(l: Layer): T {
      match l
      case Floor => floor
      case Wall => wall
      case Roof => roof
      case Special => special
    }

    /** Replaces the value of one layer and keeps the other three. */
    function Set(l: Layer, v: T): (r: PerLayer<T>)
      ensures r.Get(l) == v
      ensures forall k :: k != l ==> r.Get(k) == Get(k)
    {
      match l
      case Floor => this.(floor := v)
      case Wall => this.(wall := v)
      case Roof => this.(roof := v)
      case Special => this.(special := v)
    }
  }

  /** Custom properties a tile set declares for some of its tiles. */
  type Properties = map<string, string>

  /** A tile set: the first global tile index it covers, and the properties
      it declares, keyed by the index local to the set. */
  datatype TileSet = TileSet(firstgid: int, tileProperties: map<int, Properties>) {

    /** The declared properties of a global tile index, if any. */
    function PropertiesOf(index: int): (r: Option<Properties>)
      ensures r.Some? <==> index - firstgid in tileProperties
      ensures r.Some? ==> r.value == tileProperties[index - firstgid]
    {
      if index - firstgid in tileProperties then Some(tileProperties[index - firstgid]) else None
    }
  }

  /** A placed tile. `rotation` is in degrees as the session holds it
      (the engine stores it converted to radians); `collides` means blocked
      on all four sides; `fadeTimer` is the reset batch the tile waits on. */
  datatype Tile = Tile(
    index: int,
    rotation: int,
    alpha: Num,
    collides: bool,
    properties: Option<Properties>,
    fadeTimer: Option<nat>)

  /** A layer's cells; a cell is absent when the layer has no tile there. */
  type Grid = map<Cell, Tile>

  /** A freshly placed tile: fully opaque and not waiting on any reset. */
  function NewTile(index: int, rotation: int, collides: bool, properties: Option<Properties>): (t: Tile)
    ensures t.alpha == Finite(1.0) && t.fadeTimer.None?
  {
    Tile(index, rotation, Finite(1.0), collides, properties, None)
  }

  /** The two tiles differ at most in opacity and fade marker: same index,
      rotation, collision and properties. */
  predicate SameShape(a: Tile, b: Tile) {
    a.index == b.index && a.rotation == b.rotation && a.collides == b.collides && a.properties == b.properties
  }

  /** The grids hold tiles in the same cells, differing at most in opacity
      and fade markers. */
  predicate SameShapes(g: Grid, h: Grid) {
    g.Keys == h.Keys && forall c | c in g :: SameShape(g[c], h[c])
  }
}

=== FILE: placement.dfy ===
/** The per-tick placement and removal decisions: whether the cursors are
    shown and what, if anything, is written. The decision is computed here
    and applied to the layers by the builder. */
module Placement {
  import opened Wrappers
  import opened Geometry
  import opened Layers
  import opened Session

  /** Collision box size of a placed special block, in pixels. */
  const SpecialBodySize: real := 48.0
  /** The tag handed to the tag collaborator for every special block. */
  const SpecialTag: string := "door"

  /** A free-standing special block: where it is put, the frame of the
      special tile set it shows, its collision box and its tag. */
  datatype SpecialBlock = SpecialBlock(position: Point, frame: int, bodySize: real, tag: string)

  datatype Action =
    | NoAction
    | PutTile(layer: Layer, cell: Cell, tile: Tile)
    | SpawnSpecial(block: SpecialBlock)
    | RemoveTile(layer: Layer, cell: Cell)

  /** Cursor visibility and the write chosen for one tick. */
  datatype Decision = Decision(showCursorTile: bool, showTool: bool, action: Action)

  /** No check layer has a tile under the pointer; `hits[i]` says whether
      check layer i has one. */
  function NothingOnOtherLayers(hits: seq<bool>): (r: bool)
    ensures r <==> forall i | 0 <= i < |hits| :: !hits[i]
  {
    if hits == [] then true else !hits[0] && NothingOnOtherLayers(hits[1..])
  }

  /** Floor and roof tiles may be drawn over the player; the others may not. */
  predicate MayCoverPlayer(layer: Option<Layer>) {
    layer == Some(Floor) || layer == Some(Roof)
  }

  /** The hammer with a tile selected: the cursors show when the snapped
      cell is in reach and either the layer may cover the player or the cell
      does not overlap the leader's body. A tile is written on any layer but
      special when the cell is in reach and the pointer is down, even over
      the player; it carries the layer's first global index plus the tile's
      offset and the session's rotation, and it collides, with the tile
      set's properties, only on the wall layer away from the player. On the
      special layer one special block tagged "door" is created instead. */
  function CheckBuild(leader: Point, body: Box, pointer: Point, down: bool,
                      layer: Option<Layer>, rotation: int, data: TileData,
                      sets: PerLayer<TileSet>): (d: Decision)
    ensures d.showCursorTile == d.showTool
    ensures d.showTool <==>
      InReach(leader, Snap(pointer)) && (MayCoverPlayer(layer) || !Overlaps(body, CellBox(Snap(pointer))))
    ensures d.action.PutTile? <==>
      InReach(leader, Snap(pointer)) && down && layer.Some? && layer.value != Special
    ensures d.action.SpawnSpecial? <==>
      InReach(leader, Snap(pointer)) && down && layer == Some(Special)
    ensures !d.action.RemoveTile?
    ensures d.action.PutTile? ==>
      && d.action.layer == layer.value
      && d.action.cell == CellAt(pointer)
      && d.action.tile.index == sets.Get(layer.value).firstgid + data.tileSetOffset
      && d.action.tile.rotation == rotation
      && d.action.tile.alpha == JsNumber.Finite(1.0)
      && d.action.tile.fadeTimer.None?
      && (d.action.tile.collides <==> layer.value == Wall && !Overlaps(body, CellBox(Snap(pointer))))
      && d.action.tile.properties ==
           (if d.action.tile.collides then sets.Get(Wall).PropertiesOf(d.action.tile.index) else None)
    ensures d.action.SpawnSpecial? ==>
      d.action.block == SpecialBlock(Point(Snap(pointer).x + TileSize, Snap(pointer).y + TileSize),
                                     data.tileSetOffset, SpecialBodySize, SpecialTag)
  {
    var corner := Snap(pointer);
    var inReach := InReach(leader, corner);
    var notOnPlayer := !Overlaps(body, CellBox(corner));
    var show := inReach && (MayCoverPlayer(layer) || notOnPlayer);
    var action :=
      if inReach && down then
        if layer.Some? && layer.value != Special then
          var index := sets.Get(layer.value).firstgid + data.tileSetOffset;
          var collides := layer.value == Wall && notOnPlayer;
          var props := if collides then sets.Get(layer.value).PropertiesOf(index) else None;
          PutTile(layer.value, CellAt(corner), NewTile(index, rotation, collides, props))
        else if layer == Some(Special) then
          // the block is put 8 pixels past the cursor tile, itself 8 past the corner
          SpawnSpecial(SpecialBlock(Point(corner.x + TileSize, corner.y + TileSize),
                                    data.tileSetOffset, SpecialBodySize, SpecialTag))
        else NoAction
      else NoAction;
    Decision(show, show, action)
  }

  /** The pick: the cursor tile is hidden, the tool shows exactly when the
      snapped cell is in reach (the player's body does not matter), and the
      selected layer's cell is cleared when in reach with the pointer down.
      With no layer selected nothing is cleared. */
  function CheckRemove(leader: Point, pointer: Point, down: bool, layer: Option<Layer>): (d: Decision)
    ensures !d.showCursorTile
    ensures d.showTool <==> InReach(leader, Snap(pointer))
    ensures d.action.RemoveTile? <==> InReach(leader, Snap(pointer)) && down && layer.Some?
    ensures d.action.RemoveTile? ==> d.action.layer == layer.value && d.action.cell == CellAt(pointer)
    ensures d.action.NoAction? || d.action.RemoveTile?
  {
    var corner := Snap(pointer);
    var inReach := InReach(leader, corner);
    var action :=
      if inReach && down && layer.Some? then RemoveTile(layer.value, CellAt(corner)) else NoAction;
    Decision(false, inReach, action)
  }

  /** The tile a cell holds once `t` is written there. An empty cell gets
      `t`. An occupied cell keeps its tile object, as the engine only
      overwrites that object's index: the builder then sets the rotation,
      the collision is recomputed (no layer declares colliding indexes, so
      it is off unless the builder switches it on), and the properties are
      replaced only together with switching collision on. The opacity and
      the fade marker stay those of the old tile. */
  function Placed(g: Grid, c: Cell, t: Tile): Tile {
    if c !in g then t
    else g[c].(index := t.index, rotation := t.rotation, collides := t.collides,
               properties := if t.collides then t.properties else g[c].properties)
  }

  /** Writes a decision's action into the layers and the special-block log. */
  function Apply(layers: PerLayer<Grid>, specials: seq<SpecialBlock>, a: Action): (PerLayer<Grid>, seq<SpecialBlock>) {
    match a
    case NoAction => (layers, specials)
    case PutTile(l, c, t) => (layers.Set(l, layers.Get(l)[c := Placed(layers.Get(l), c, t)]), specials)
    case SpawnSpecial(b) => (layers, specials + [b])
    case RemoveTile(l, c) => (layers.Set(l, layers.Get(l) - {c}), specials)
  }

  /** Applying an action touches one cell of one layer, or appends exactly
      one special block. Placing makes the cell hold a tile with the new
      index, rotation and collision: on an empty cell the new tile itself,
      on an occupied one the old tile's opacity and fade marker, and its
      properties unless the new tile collides. Removing leaves the cell
      empty (a no-op on an empty cell). Every other cell of every layer is
      unchanged. */
  lemma ApplyTouchesOneCell(layers: PerLayer<Grid>, specials: seq<SpecialBlock>, a: Action)
    ensures var (ls, sp) := Apply(layers, specials, a);
      && (a.PutTile? ==>
            var before := layers.Get(a.layer);
            var t := ls.Get(a.layer)[a.cell];
            && a.cell in ls.Get(a.layer)
            && t.index == a.tile.index && t.rotation == a.tile.rotation && t.collides == a.tile.collides
            && (a.cell !in before ==> t == a.tile)
            && (a.cell in before ==>
                  && t.alpha == before[a.cell].alpha && t.fadeTimer == before[a.cell].fadeTimer
                  && t.properties == (if a.tile.collides then a.tile.properties else before[a.cell].properties)))
      && (a.RemoveTile? ==> a.cell !in ls.Get(a.layer))
      && (a.RemoveTile? && a.cell !in layers.Get(a.layer) ==> ls == layers)
      && (forall l: Layer, c: Cell | !((a.PutTile? || a.RemoveTile?) && l == a.layer && c == a.cell) ::
            (c in ls.Get(l) <==> c in layers.Get(l)) && (c in ls.Get(l) ==> ls.Get(l)[c] == layers.Get(l)[c]))
      && sp == (if a.SpawnSpecial? then specials + [a.block] else specials)
  {
    match a
    case NoAction =>
    case PutTile(l, c, t) =>
    case SpawnSpecial(b) =>
    case RemoveTile(l, c) =>
      if c !in layers.Get(l) {
        assert layers.Get(l) - {c} == layers.Get(l);
        assert layers.Set(l, layers.Get(l)) == layers;
      }
  }
}

=== FILE: roof.dfy ===
/** The roof see-through pass run once per tick, and the one-shot reset
    batches it schedules. Roof tiles near the leader and the other party
    members are faded; every searched tile that is not already waiting on a
    reset joins one new batch, and firing a batch makes its tiles opaque
    again. The engine's circle search and `Math.hypot` are parameters. */
module Roof {
  import opened Wrappers
  import opened Geometry
  import opened JsNumber
  import opened Layers
  import opened Vision

  /** The engine's "non-empty tiles within a circle" search, as the cells
      it reports for a centre and a radius; which cells a circle reaches is
      left to the engine. */
  type CircleQuery = (Point, real) -> set<Cell>

  /** `Math.hypot`. */
  type Hypot = (real, real) -> real

  /** Pending reset batches by id, the next id to hand out, and the
      module-wide count of scheduled timers. */
  datatype Timers = Timers(pending: map<nat, set<Cell>>, nextId: nat, numTimers: int)

  /** What the pass reads and writes: the roof grid, the timers, the radii. */
  datatype RoofState = RoofState(grid: Grid, timers: Timers, vision: Vision)

  /** Build mode: opacity of leader-circle tiles when the roof layer is
      selected, when another layer is, and of follower-circle tiles. */
  const BuildAlphaRoofSelected: real := 0.5
  const BuildAlphaOtherLayer: real := 0.1
  const BuildAlphaParty: real := 0.5
  /** The leader's fully transparent circle is this fraction of the radius. */
  const LeaderInnerFraction: real := 0.5
  /** A follower's fully transparent circle is this fraction of its radius... */
  const PartyInnerFraction: real := 0.25
  /** ...while its fade formula starts at this fraction. */
  const PartyFadeFraction: real := 0.5

  /** Roof tiles the circle search reports. */
  function InCircle(q: CircleQuery, g: Grid, centre: Point, radius: real): (r: set<Cell>)
    ensures forall c :: c in r <==> c in g && c in q(centre, radius)
  {
    set c | c in q(centre, radius) && c in g
  }

  /** Roof tiles reported for at least one follower. */
  function InFollowerCircles(q: CircleQuery, g: Grid, followers: seq<Point>, radius: real): (r: set<Cell>)
    ensures forall c :: c in r <==> c in g && exists i | 0 <= i < |followers| :: c in q(followers[i], radius)
  {
    set c | c in g && exists i | 0 <= i < |followers| :: c in q(followers[i], radius)
  }

  /** `(d - inner) / (outer - inner)`, not clamped. */
  function FadeAlpha(d: real, inner: real, outer: real): Num {
    Divide(d - inner, outer - inner)
  }

  /** Between the inner and the outer radius the fade runs linearly from
      0 to 1; inside the inner radius it goes negative, as nothing clamps it. */
  lemma FadeAlphaShape(d: real, e: real, inner: real, outer: real)
    requires inner < outer
    ensures FadeAlpha(inner, inner, outer) == Finite(0.0)
    ensures FadeAlpha(outer, inner, outer) == Finite(1.0)
    ensures d < inner ==> FadeAlpha(d, inner, outer).value < 0.0
    ensures d <= e ==> FadeAlpha(d, inner, outer).value <= FadeAlpha(e, inner, outer).value
  {
    var w := outer - inner;
    if d <= e {
      assert (d - inner) / w <= (e - inner) / w by {
        assert (d - inner) / w * w == d - inner;
        assert (e - inner) / w * w == e - inner;
      }
    }
    assert (outer - inner) / w == 1.0;
    if d < inner {
      assert (d - inner) / w * w == d - inner;
    }
  }

  /** The fade computed for a tile from its centre's distance to `centre`. */
  function DistanceAlpha(h: Hypot, centre: Point, c: Cell, inner: real, outer: real): Num {
    FadeAlpha(h(Centre(c).x - centre.x, Centre(c).y - centre.y), inner, outer)
  }

  /** Only opacity changes: same cells, same tiles otherwise. */
  predicate OnlyAlpha(g: Grid, r: Grid) {
    g.Keys == r.Keys && forall c | c in g :: SameShape(g[c], r[c]) && r[c].fadeTimer == g[c].fadeTimer
  }

  /** `setAlpha(a)` on each tile of `cells`. */
  function Paint(g: Grid, cells: set<Cell>, a: Num): (r: Grid)
    ensures OnlyAlpha(g, r)
    ensures forall c | c in g :: r[c].alpha == (if c in cells then a else g[c].alpha)
  {
    map c | c in g :: if c in cells then g[c].(alpha := a) else g[c]
  }

  /** The "only if lower" write: the new value `f` when it is strictly
      below the current `a` in JavaScript's `<`, otherwise `a`. */
  function LowerOnly(a: Num, f: Num): (r: Num)
    ensures AtMost(r, a)
    ensures r == a || r == f
  {
    if Less(f, a) then f else a
  }

  /** The distance fade on each tile of `cells`, written only where it is
      strictly below the tile's current opacity. */
  function LowerTo(g: Grid, cells: set<Cell>, h: Hypot, centre: Point, inner: real, outer: real): (r: Grid)
    ensures OnlyAlpha(g, r)
    ensures forall c | c in g :: AtMost(r[c].alpha, g[c].alpha)
    ensures forall c | c in g && c in cells :: r[c].alpha == LowerOnly(g[c].alpha, DistanceAlpha(h, centre, c, inner, outer))
    ensures forall c | c in g && c !in cells :: r[c] == g[c]
  {
    map c | c in g ::
      var a := DistanceAlpha(h, centre, c, inner, outer);
      if c in cells && Less(a, g[c].alpha) then g[c].(alpha := a) else g[c]
  }

  /** The followers' fade, one follower after another in party order: the
      distance fade over its circle of radius `radius`, then its inner
      quarter-radius circle made fully transparent. */
  function FadeFollowers(g: Grid, followers: seq<Point>, q: CircleQuery, h: Hypot, radius: real): (r: Grid)
    ensures OnlyAlpha(g, r)
    decreases |followers|
  {
    if followers == [] then g
    else
      var p := followers[0];
      var g1 := LowerTo(g, InCircle(q, g, p, radius), h, p, PartyFadeFraction * radius, radius);
      var g2 := Paint(g1, InCircle(q, g1, p, radius * PartyInnerFraction), Finite(0.0));
      FadeFollowers(g2, followers[1..], q, h, radius)
  }

  /** The leader's fade: the distance fade over the circle of radius
      `outer`, then the circle of radius `inner` made fully transparent. */
  function FadeLeader(g: Grid, leader: Point, q: CircleQuery, h: Hypot, inner: real, outer: real): (r: Grid)
    ensures OnlyAlpha(g, r)
  {
    var g1 := LowerTo(g, InCircle(q, g, leader, outer), h, leader, inner, outer);
    Paint(g1, InCircle(q, g1, leader, inner), Finite(0.0))
  }

  /** Build mode's fixed opacities: the leader's circle first, then every
      follower circle. */
  function BuildPaint(g: Grid, leader: Point, followers: seq<Point>, q: CircleQuery,
                      outer: real, party: real, roofSelected: bool): (r: Grid)
    ensures OnlyAlpha(g, r)
  {
    var leaderAlpha := if roofSelected then BuildAlphaRoofSelected else BuildAlphaOtherLayer;
    var g1 := Paint(g, InCircle(q, g, leader, outer), Finite(leaderAlpha));
    Paint(g1, InFollowerCircles(q, g1, followers, party), Finite(BuildAlphaParty))
  }

  /** Every fade marker names a pending batch that lists its cell, every
      pending id was handed out already, and the timer count is the number
      of pending batches. */
  predicate TimersConsistent(g: Grid, t: Timers) {
    && t.numTimers == |t.pending|
    && (forall id | id in t.pending :: id < t.nextId)
    && (forall c | c in g && g[c].fadeTimer.Some? ::
          g[c].fadeTimer.value in t.pending && c in t.pending[g[c].fadeTimer.value])
  }

  /** Tiles of `cells` that are not waiting on any reset. */
  function Untimed(g: Grid, cells: set<Cell>): (u: set<Cell>)
    ensures forall c :: c in u <==> c in cells && c in g && g[c].fadeTimer.None?
  {
    set c | c in cells && c in g && g[c].fadeTimer.None?
  }

  /** Marks the tiles of `batch` as waiting on reset batch `id`; nothing
      else about any tile changes. */
  function MarkBatch(g: Grid, batch: set<Cell>, id: nat): (r: Grid)
    ensures r.Keys == g.Keys
    ensures forall c | c in g :: SameShape(g[c], r[c]) && r[c].alpha == g[c].alpha
    ensures forall c | c in g :: r[c].fadeTimer == if c in batch then Some(id) else g[c].fadeTimer
  {
    map c | c in g :: if c in batch then g[c].(fadeTimer := Some(id)) else g[c]
  }

  /** Queues `batch` as one more timer under the next id, unless it is empty. */
  function Enqueue(t: Timers, batch: set<Cell>): Timers {
    if batch == {} then t
    else Timers(t.pending[t.nextId := batch], t.nextId + 1, t.numTimers + 1)
  }

  /** Puts the untimed tiles of `cells` in one new batch, when there are
      any: each of them waits on the next id, every other tile keeps its
      marker, no opacity changes, and one timer more is counted exactly
      when some tile of `cells` was untimed. */
  function Schedule(g: Grid, t: Timers, cells: set<Cell>): (r: (Grid, Timers))
    ensures r.0.Keys == g.Keys
    ensures forall c | c in g :: SameShape(g[c], r.0[c]) && r.0[c].alpha == g[c].alpha
    ensures forall c | c in g ::
      r.0[c].fadeTimer == if c in cells && g[c].fadeTimer.None? then Some(t.nextId) else g[c].fadeTimer
    ensures r.1.numTimers == t.numTimers + (if exists c | c in cells :: c in g && g[c].fadeTimer.None? then 1 else 0)
  {
    var batch := Untimed(g, cells);
    (MarkBatch(g, batch, t.nextId), Enqueue(t, batch))
  }

  /** The fades outside build mode: the followers' in party order with
      radius `radius`, then the leader's between `inner` and `outer`. */
  function PartyFade(g: Grid, party: seq<Point>, q: CircleQuery, h: Hypot,
                     inner: real, outer: real, radius: real): (r: Grid)
    requires |party| >= 1
    ensures OnlyAlpha(g, r)
  {
    FadeLeader(FadeFollowers(g, party[1..], q, h, radius), party[0], q, h, inner, outer)
  }

  /** This tick's radii: widened in build mode and when the leader stands
      on a roof tile, narrowed otherwise. */
  function Stepped(s: RoofState, buildMode: bool, party: seq<Point>): Vision
    requires |party| >= 1
  {
    Step(s.vision, CellAt(party[0]) in s.grid || buildMode)
  }

  /** The opacity half of the pass, with this tick's radii `v`: build
      mode's fixed values, or the party's fades. The leader's inner radius
      is half the leader radius as it was before the step. */
  function Faded(s: RoofState, v: Vision, buildMode: bool, roofSelected: bool, party: seq<Point>,
                 q: CircleQuery, h: Hypot): (g: Grid)
    requires |party| >= 1
  {
    if buildMode then
      BuildPaint(s.grid, party[0], party[1..], q, v.leader as real, v.party as real, roofSelected)
    else
      PartyFade(s.grid, party, q, h, LeaderInnerFraction * s.vision.leader as real, v.leader as real, v.party as real)
  }

  /** One tick of the roof pass: step the radii, fade, then batch the
      searched tiles that are not yet waiting on a reset. */
  function RoofPass(s: RoofState, buildMode: bool, roofSelected: bool, party: seq<Point>,
                    q: CircleQuery, h: Hypot): (r: RoofState)
    requires |party| >= 1
    ensures r.vision == Step(s.vision, CellAt(party[0]) in s.grid || buildMode)
    ensures r.grid.Keys == s.grid.Keys
  {
    var v := Stepped(s, buildMode, party);
    var sc := Schedule(Faded(s, v, buildMode, roofSelected, party, q, h), s.timers, SearchedCells(s, buildMode, party, q));
    RoofState(sc.0, sc.1, v)
  }

  /** The tiles of the leader's circle and of every follower circle, with
      this tick's stepped radii: the tiles the pass puts in a reset batch. */
  function SearchedCells(s: RoofState, buildMode: bool, party: seq<Point>, q: CircleQuery): (r: set<Cell>)
    requires |party| >= 1
    ensures r <= s.grid.Keys
    ensures forall c :: c in r <==>
      (c in s.grid &&
       (c in q(party[0], Stepped(s, buildMode, party).leader as real)
        || exists i | 1 <= i < |party| :: c in q(party[i], Stepped(s, buildMode, party).party as real)))
  {
    var v := Stepped(s, buildMode, party);
    InCircle(q, s.grid, party[0], v.leader as real) + InFollowerCircles(q, s.grid, party[1..], v.party as real)
  }

  /** Fires batch `id`: its tiles that still wait on it become opaque and
      stop waiting, and the batch is no longer pending. A tile that was
      removed since, and so no longer carries the id, is not touched. An id
      that is not pending changes nothing. */
  function Fire(g: Grid, t: Timers, id: nat): (r: (Grid, Timers))
    ensures id !in t.pending ==> r == (g, t)
    ensures id !in r.1.pending && r.1.nextId == t.nextId
    ensures r.0.Keys == g.Keys
    ensures forall c | c in g :: SameShape(g[c], r.0[c])
    ensures forall c | c in g && g[c].fadeTimer != Some(id) :: r.0[c] == g[c]
    ensures id in t.pending ==> forall c | c in g && g[c].fadeTimer == Some(id) ::
      r.0[c] == (if c in t.pending[id] then g[c].(alpha := Finite(1.0), fadeTimer := None) else g[c])
  {
    if id !in t.pending then (g, t)
    else
      var batch := t.pending[id];
      var g' := map c | c in g ::
        if c in batch && g[c].fadeTimer == Some(id) then g[c].(alpha := Finite(1.0), fadeTimer := None) else g[c];
      (g', Timers(t.pending - {id}, t.nextId, t.numTimers - 1))
  }
}

=== FILE: roof_properties.dfy ===
/** What the roof pass and the reset batches guarantee. */
module RoofProperties {
  import opened Wrappers
  import opened Geometry
  import opened JsNumber
  import opened Layers
  import opened Vision
  import opened Roof

  /** The pass's final opacities are those of its fade half: batching only
      touches fade markers. */
  lemma RoofPassAlpha(s: RoofState, buildMode: bool, roofSelected: bool, party: seq<Point>,
                      q: CircleQuery, h: Hypot, c: Cell)
    requires |party| >= 1 && c in s.grid
    ensures RoofPass(s, buildMode, roofSelected, party, q, h).grid[c].alpha
         == Faded(s, Stepped(s, buildMode, party), buildMode, roofSelected, party, q, h)[c].alpha
  {
  }

  /** The pass's grid and timers are the batching of its faded grid. */
  lemma RoofPassBatchesFaded(s: RoofState, buildMode: bool, roofSelected: bool, party: seq<Point>,
                             q: CircleQuery, h: Hypot)
    requires |party| >= 1
    ensures var r := RoofPass(s, buildMode, roofSelected, party, q, h);
      var g := Faded(s, Stepped(s, buildMode, party), buildMode, roofSelected, party, q, h);
      var batch := Untimed(g, SearchedCells(s, buildMode, party, q));
      r.grid == MarkBatch(g, batch, s.timers.nextId) && r.timers == Enqueue(s.timers, batch)
  {
  }

  /** Batching after a change of opacities only: the batch is the tiles of
      `cells` untimed before the change; it gets the next id, the timers
      gain it, tiles keep their shape, waiting tiles keep their batch, and
      every tile of `cells` ends up waiting. */
  lemma BatchAfterFade(g0: Grid, g: Grid, t: Timers, cells: set<Cell>)
    requires OnlyAlpha(g0, g) && cells <= g0.Keys
    ensures var batch := Untimed(g, cells);
      var r := MarkBatch(g, batch, t.nextId);
      && batch == Untimed(g0, cells)
      && (batch == {} ==> Enqueue(t, batch) == t)
      && (batch != {} ==> Enqueue(t, batch) == Timers(t.pending[t.nextId := batch], t.nextId + 1, t.numTimers + 1))
      && SameShapes(g0, r)
      && (forall c | c in g0 && g0[c].fadeTimer.Some? :: r[c].fadeTimer == g0[c].fadeTimer)
      && (forall c | c in cells :: r[c].fadeTimer.Some?)
      && (forall c | c in batch :: r[c].fadeTimer == Some(t.nextId))
  {
    MarkersUnderAlpha(g0, g);
    UntimedUnderAlpha(g0, g, cells);
  }

  /** Batching keeps every tile's index, rotation, collision and
      properties; a tile already waiting on a reset keeps its batch and is
      never put in another; every searched tile ends up waiting on one. */
  lemma RoofPassMarksSearchedTiles(s: RoofState, buildMode: bool, roofSelected: bool, party: seq<Point>,
                                   q: CircleQuery, h: Hypot)
    requires |party| >= 1
    ensures var r := RoofPass(s, buildMode, roofSelected, party, q, h);
      && SameShapes(s.grid, r.grid)
      && (forall c | c in s.grid && s.grid[c].fadeTimer.Some? :: r.grid[c].fadeTimer == s.grid[c].fadeTimer)
      && (forall c | c in SearchedCells(s, buildMode, party, q) :: r.grid[c].fadeTimer.Some?)
  {
    RoofPassBatchesFaded(s, buildMode, roofSelected, party, q, h);
    BatchAfterFade(s.grid, Faded(s, Stepped(s, buildMode, party), buildMode, roofSelected, party, q, h), s.timers, SearchedCells(s, buildMode, party, q));
  }

  /** The pass queues one batch: the searched tiles that were not waiting
      on a reset before it (nothing is queued when there are none). */
  lemma RoofPassSchedulesOneBatch(s: RoofState, buildMode: bool, roofSelected: bool, party: seq<Point>,
                                  q: CircleQuery, h: Hypot)
    requires |party| >= 1
    ensures var r := RoofPass(s, buildMode, roofSelected, party, q, h);
      r.timers == Enqueue(s.timers, Untimed(s.grid, SearchedCells(s, buildMode, party, q)))
  {
    RoofPassBatchesFaded(s, buildMode, roofSelected, party, q, h);
    BatchAfterFade(s.grid, Faded(s, Stepped(s, buildMode, party), buildMode, roofSelected, party, q, h), s.timers, SearchedCells(s, buildMode, party, q));
  }

  /** Queueing an empty batch changes nothing; queueing any other batch
      adds exactly one pending batch, under an id no pending batch has,
      keeps every other pending batch, and counts one more timer. */
  lemma EnqueueAddsOneBatch(t: Timers, batch: set<Cell>)
    requires forall id | id in t.pending :: id < t.nextId
    ensures batch == {} ==> Enqueue(t, batch) == t
    ensures batch != {} ==>
      var r := Enqueue(t, batch);
      && t.nextId !in t.pending
      && r.pending.Keys == t.pending.Keys + {t.nextId}
      && r.pending[t.nextId] == batch
      && (forall id | id in t.pending :: r.pending[id] == t.pending[id])
      && |r.pending| == |t.pending| + 1
      && r.numTimers == t.numTimers + 1
      && (forall id | id in r.pending :: id < r.nextId)
  {
    if batch != {} {
      assert t.nextId !in t.pending;
    }
  }

  /** The tiles of the new batch wait on it: their marker is the id the
      batch was given. */
  lemma RoofPassMarksNewBatch(s: RoofState, buildMode: bool, roofSelected: bool, party: seq<Point>,
                              q: CircleQuery, h: Hypot)
    requires |party| >= 1
    ensures var r := RoofPass(s, buildMode, roofSelected, party, q, h);
      forall c | c in Untimed(s.grid, SearchedCells(s, buildMode, party, q)) ::
        r.grid[c].fadeTimer == Some(s.timers.nextId)
  {
    RoofPassBatchesFaded(s, buildMode, roofSelected, party, q, h);
    BatchAfterFade(s.grid, Faded(s, Stepped(s, buildMode, party), buildMode, roofSelected, party, q, h), s.timers, SearchedCells(s, buildMode, party, q));
  }

  /** Scheduling keeps every fade marker naming a pending batch that lists
      its tile, and the timer count equal to the number of pending batches. */
  lemma ScheduleKeepsTimersConsistent(g: Grid, t: Timers, cells: set<Cell>)
    requires TimersConsistent(g, t)
    ensures var sc := Schedule(g, t, cells);
      TimersConsistent(sc.0, sc.1)
  {
    var batch := Untimed(g, cells);
    assert t.nextId !in t.pending;
    if batch != {} {
      assert |t.pending[t.nextId := batch]| == |t.pending| + 1;
    }
  }

  /** The pass keeps every fade marker naming a pending batch that lists
      its tile, and the timer count equal to the number of pending batches. */
  lemma RoofPassKeepsTimersConsistent(s: RoofState, buildMode: bool, roofSelected: bool, party: seq<Point>,
                                      q: CircleQuery, h: Hypot)
    requires |party| >= 1 && TimersConsistent(s.grid, s.timers)
    ensures var r := RoofPass(s, buildMode, roofSelected, party, q, h);
      TimersConsistent(r.grid, r.timers)
  {
    var g := Faded(s, Stepped(s, buildMode, party), buildMode, roofSelected, party, q, h);
    var cells := SearchedCells(s, buildMode, party, q);
    ConsistentUnderAlpha(s.grid, g, s.timers);
    ScheduleKeepsTimersConsistent(g, s.timers, cells);
    var sc := Schedule(g, s.timers, cells);
    var r := RoofPass(s, buildMode, roofSelected, party, q, h);
    assert r.grid == sc.0 && r.timers == sc.1;
  }

  /** Changing only opacities keeps every tile's fade marker. */
  lemma MarkersUnderAlpha(g: Grid, r: Grid)
    requires OnlyAlpha(g, r)
    ensures forall c | c in g :: r[c].fadeTimer == g[c].fadeTimer
  {
    forall c | c in g
      ensures r[c].fadeTimer == g[c].fadeTimer
    {
      assert SameShape(g[c], r[c]) && r[c].fadeTimer == g[c].fadeTimer;
    }
  }

  /** Changing only opacities does not change which tiles are untimed. */
  lemma UntimedUnderAlpha(g: Grid, r: Grid, cells: set<Cell>)
    requires OnlyAlpha(g, r)
    ensures Untimed(r, cells) == Untimed(g, cells)
  {
    MarkersUnderAlpha(g, r);
  }

  /** Changing only opacities keeps the markers consistent with the
      pending batches. */
  lemma ConsistentUnderAlpha(g: Grid, r: Grid, t: Timers)
    requires OnlyAlpha(g, r) && TimersConsistent(g, t)
    ensures TimersConsistent(r, t)
  {
    MarkersUnderAlpha(g, r);
  }

  /** Build mode: a tile in any follower's circle ends at 0.5, since the
      followers' circles are painted after the leader's; a tile only in the
      leader's circle ends at 0.5 when the roof layer is selected and at 0.1
      otherwise; every other tile keeps its opacity. */
  lemma BuildModeAlphas(s: RoofState, roofSelected: bool, party: seq<Point>,
                        q: CircleQuery, h: Hypot, c: Cell)
    requires |party| >= 1 && c in s.grid
    ensures var v := Step(s.vision, true);
      RoofPass(s, true, roofSelected, party, q, h).grid[c].alpha ==
        if exists i | 1 <= i < |party| :: c in q(party[i], v.party as real) then Finite(BuildAlphaParty)
        else if c in q(party[0], v.leader as real) then
          Finite(if roofSelected then BuildAlphaRoofSelected else BuildAlphaOtherLayer)
        else s.grid[c].alpha
  {
    hide Faded, PartyFade, BuildPaint;
    RoofPassAlpha(s, true, roofSelected, party, q, h, c);
    BuildFadedAlphas(s, Stepped(s, true, party), roofSelected, party, q, h, c);
  }

  /** The same, for build mode's fade half with any radii `v`. */
  lemma BuildFadedAlphas(s: RoofState, v: Vision, roofSelected: bool, party: seq<Point>,
                         q: CircleQuery, h: Hypot, c: Cell)
    requires |party| >= 1 && c in s.grid
    ensures Faded(s, v, true, roofSelected, party, q, h)[c].alpha ==
        if exists i | 1 <= i < |party| :: c in q(party[i], v.party as real) then Finite(BuildAlphaParty)
        else if c in q(party[0], v.leader as real) then
          Finite(if roofSelected then BuildAlphaRoofSelected else BuildAlphaOtherLayer)
        else s.grid[c].alpha
  {
    hide PartyFade;
    var followers := party[1..];
    if exists i | 1 <= i < |party| :: c in q(party[i], v.party as real) {
      var i :| 1 <= i < |party| && c in q(party[i], v.party as real);
      assert followers[i - 1] == party[i];
    }
    if exists i | 0 <= i < |followers| :: c in q(followers[i], v.party as real) {
      var i :| 0 <= i < |followers| && c in q(followers[i], v.party as real);
      assert party[i + 1] == followers[i];
    }
  }

  /** Outside any follower's quarter-radius circle, the followers' fades
      never raise a tile's opacity. */
  lemma {:induction false} FollowersNeverRaise(g: Grid, followers: seq<Point>, q: CircleQuery, h: Hypot,
                                               radius: real, c: Cell)
    requires c in g
    requires forall i | 0 <= i < |followers| :: c !in q(followers[i], radius * PartyInnerFraction)
    ensures AtMost(FadeFollowers(g, followers, q, h, radius)[c].alpha, g[c].alpha)
    decreases |followers|
  {
    if followers != [] {
      var p := followers[0];
      var g1 := LowerTo(g, InCircle(q, g, p, radius), h, p, PartyFadeFraction * radius, radius);
      var g2 := Paint(g1, InCircle(q, g1, p, radius * PartyInnerFraction), Finite(0.0));
      assert c !in q(followers[0], radius * PartyInnerFraction);
      assert g2[c] == g1[c];
      var rest := followers[1..];
      forall i | 0 <= i < |rest|
        ensures c !in q(rest[i], radius * PartyInnerFraction)
      {
        assert rest[i] == followers[i + 1];
      }
      FollowersNeverRaise(g2, rest, q, h, radius, c);
      LessIsStrictOrder(FadeFollowers(g2, rest, q, h, radius)[c].alpha, g1[c].alpha, g[c].alpha);
    }
  }

  /** A tile outside every follower circle, of either radius, is left as it was. */
  lemma {:induction false} FollowersLeaveOthers(g: Grid, followers: seq<Point>, q: CircleQuery, h: Hypot,
                                                radius: real, c: Cell)
    requires c in g
    requires forall i | 0 <= i < |followers| ::
      c !in q(followers[i], radius) && c !in q(followers[i], radius * PartyInnerFraction)
    ensures FadeFollowers(g, followers, q, h, radius)[c] == g[c]
    decreases |followers|
  {
    if followers != [] {
      var p := followers[0];
      var g1 := LowerTo(g, InCircle(q, g, p, radius), h, p, PartyFadeFraction * radius, radius);
      var g2 := Paint(g1, InCircle(q, g1, p, radius * PartyInnerFraction), Finite(0.0));
      assert c !in q(followers[0], radius) && c !in q(followers[0], radius * PartyInnerFraction);
      assert g2[c] == g[c];
      var rest := followers[1..];
      forall i | 0 <= i < |rest|
        ensures c !in q(rest[i], radius) && c !in q(rest[i], radius * PartyInnerFraction)
      {
        assert rest[i] == followers[i + 1];
      }
      FollowersLeaveOthers(g2, rest, q, h, radius, c);
    }
  }

  /** Outside the leader's inner circle the leader's fade never raises a
      tile's opacity, and in the outer circle it writes the distance fade
      between the inner and the outer radius when that is strictly lower;
      inside the inner circle the tile ends fully transparent. */
  lemma LeaderFade(g: Grid, leader: Point, q: CircleQuery, h: Hypot, inner: real, outer: real, c: Cell)
    requires c in g
    ensures c !in q(leader, inner) ==> AtMost(FadeLeader(g, leader, q, h, inner, outer)[c].alpha, g[c].alpha)
    ensures c !in q(leader, inner) && c in q(leader, outer) ==>
      FadeLeader(g, leader, q, h, inner, outer)[c].alpha == LowerOnly(g[c].alpha, DistanceAlpha(h, leader, c, inner, outer))
    ensures c in q(leader, inner) ==> FadeLeader(g, leader, q, h, inner, outer)[c].alpha == Finite(0.0)
    ensures c !in q(leader, inner) && c !in q(leader, outer) ==> FadeLeader(g, leader, q, h, inner, outer)[c] == g[c]
  {
  }

  /** The opacity a tile ends at when it is offered `fades` in order, each
      written only when strictly below the opacity it has by then. */
  function LowerAll(a: Num, fades: seq<Num>): Num
    decreases |fades|
  {
    if fades == [] then a else LowerAll(LowerOnly(a, fades[0]), fades[1..])
  }

  /** The fades the followers offer tile `c`, in party order: one for each
      follower whose circle reports it, running from 0 at half the radius to
      1 at the radius. */
  function FollowerFades(followers: seq<Point>, q: CircleQuery, h: Hypot, radius: real, c: Cell): seq<Num>
    decreases |followers|
  {
    if followers == [] then []
    else
      (if c in q(followers[0], radius) then [DistanceAlpha(h, followers[0], c, PartyFadeFraction * radius, radius)] else [])
      + FollowerFades(followers[1..], q, h, radius, c)
  }

  /** Every fade tile `c` is offered outside build mode: the followers', then
      the leader's between `inner` and `outer` when the leader's circle
      reports it. */
  function PartyFades(party: seq<Point>, q: CircleQuery, h: Hypot, inner: real, outer: real, radius: real,
                      c: Cell): seq<Num>
    requires |party| >= 1
  {
    FollowerFades(party[1..], q, h, radius, c)
    + (if c in q(party[0], outer) then [DistanceAlpha(h, party[0], c, inner, outer)] else [])
  }

  /** Offering two runs of fades is offering the first, then the second. */
  lemma {:induction false} LowerAllAppend(a: Num, xs: seq<Num>, ys: seq<Num>)
    ensures LowerAll(a, xs + ys) == LowerAll(LowerAll(a, xs), ys)
    decreases |xs|
  {
    if xs == [] {
      assert xs + ys == ys;
    } else {
      assert (xs + ys)[0] == xs[0];
      assert (xs + ys)[1..] == xs[1..] + ys;
      LowerAllAppend(LowerOnly(a, xs[0]), xs[1..], ys);
    }
  }

  /** With finite numbers only, "most restrictive wins": the tile ends at
      the least of its opacity and every fade it is offered. */
  lemma {:induction false} LowerAllIsLeast(a: Num, fades: seq<Num>)
    requires a.Finite? && forall f | f in fades :: f.Finite?
    ensures LowerAll(a, fades).Finite?
    ensures LowerAll(a, fades).value <= a.value
    ensures forall f | f in fades :: LowerAll(a, fades).value <= f.value
    ensures LowerAll(a, fades) == a || LowerAll(a, fades) in fades
    decreases |fades|
  {
    if fades != [] {
      var b := LowerOnly(a, fades[0]);
      var rest := fades[1..];
      assert fades == [fades[0]] + rest;
      LowerAllIsLeast(b, rest);
    }
  }

  /** A tile at 1 offered 0.6 then 0.3 ends at 0.3; offered 0.6 then 0.8
      it stays at 0.6. */
  lemma LowerAllExamples()
    ensures LowerAll(Finite(1.0), [Finite(0.6), Finite(0.3)]) == Finite(0.3)
    ensures LowerAll(Finite(1.0), [Finite(0.6), Finite(0.8)]) == Finite(0.6)
  {
    assert [Finite(0.6), Finite(0.3)][1..] == [Finite(0.3)];
    assert [Finite(0.6), Finite(0.8)][1..] == [Finite(0.8)];
  }

  /** Outside every follower's quarter-radius circle, the followers' fades
      leave a tile at its opacity offered each follower's fade in turn. */
  lemma {:induction false} FollowersFadeValue(g: Grid, followers: seq<Point>, q: CircleQuery, h: Hypot,
                                              radius: real, c: Cell)
    requires c in g
    requires forall i | 0 <= i < |followers| :: c !in q(followers[i], radius * PartyInnerFraction)
    ensures FadeFollowers(g, followers, q, h, radius)[c].alpha
         == LowerAll(g[c].alpha, FollowerFades(followers, q, h, radius, c))
    decreases |followers|
  {
    if followers != [] {
      var p := followers[0];
      var g1 := LowerTo(g, InCircle(q, g, p, radius), h, p, PartyFadeFraction * radius, radius);
      var g2 := Paint(g1, InCircle(q, g1, p, radius * PartyInnerFraction), Finite(0.0));
      assert c !in q(followers[0], radius * PartyInnerFraction);
      var rest := followers[1..];
      forall i | 0 <= i < |rest|
        ensures c !in q(rest[i], radius * PartyInnerFraction)
      {
        assert rest[i] == followers[i + 1];
      }
      FollowersFadeValue(g2, rest, q, h, radius, c);
      var head := if c in q(p, radius) then [DistanceAlpha(h, p, c, PartyFadeFraction * radius, radius)] else [];
      LowerAllAppend(g[c].alpha, head, FollowerFades(rest, q, h, radius, c));
      if head != [] {
        assert head[1..] == [];
      }
      assert LowerAll(g[c].alpha, head) == g2[c].alpha;
    }
  }

  /** Outside every inner circle, the fades outside build mode leave a tile
      at its opacity offered every follower's fade in party order and then
      the leader's. */
  lemma PartyFadeValue(g: Grid, party: seq<Point>, q: CircleQuery, h: Hypot,
                       inner: real, outer: real, radius: real, c: Cell)
    requires |party| >= 1 && c in g
    requires c !in q(party[0], inner)
    requires forall i | 1 <= i < |party| :: c !in q(party[i], radius * PartyInnerFraction)
    ensures PartyFade(g, party, q, h, inner, outer, radius)[c].alpha
         == LowerAll(g[c].alpha, PartyFades(party, q, h, inner, outer, radius, c))
  {
    var followers := party[1..];
    forall i | 0 <= i < |followers|
      ensures c !in q(followers[i], radius * PartyInnerFraction)
    {
      assert followers[i] == party[i + 1];
    }
    FollowersFadeValue(g, followers, q, h, radius, c);
    var gf := FadeFollowers(g, followers, q, h, radius);
    LeaderFade(gf, party[0], q, h, inner, outer, c);
    var tail := if c in q(party[0], outer) then [DistanceAlpha(h, party[0], c, inner, outer)] else [];
    LowerAllAppend(g[c].alpha, FollowerFades(followers, q, h, radius, c), tail);
    if tail != [] {
      assert tail[1..] == [];
    }
  }

  /** With finite opacities and fades, a tile outside every inner circle
      ends at the least of its opacity, each fade of a follower circle that
      reports it, and the leader's fade when the leader's circle reports it. */
  lemma PartyFadeIsLeast(g: Grid, party: seq<Point>, q: CircleQuery, h: Hypot,
                         inner: real, outer: real, radius: real, c: Cell)
    requires |party| >= 1 && c in g
    requires c !in q(party[0], inner)
    requires forall i | 1 <= i < |party| :: c !in q(party[i], radius * PartyInnerFraction)
    requires g[c].alpha.Finite?
    requires forall f | f in PartyFades(party, q, h, inner, outer, radius, c) :: f.Finite?
    ensures var r := PartyFade(g, party, q, h, inner, outer, radius)[c].alpha;
      var fades := PartyFades(party, q, h, inner, outer, radius, c);
      && r.Finite? && r.value <= g[c].alpha.value
      && (forall f | f in fades :: r.value <= f.value)
      && (forall i | 1 <= i < |party| && c in q(party[i], radius) ::
            AtMost(r, DistanceAlpha(h, party[i], c, PartyFadeFraction * radius, radius)))
      && (c in q(party[0], outer) ==> AtMost(r, DistanceAlpha(h, party[0], c, inner, outer)))
      && (r == g[c].alpha || r in fades)
  {
    hide PartyFade, PartyFades, LowerAll, DistanceAlpha, FollowerFades;
    PartyFadeValue(g, party, q, h, inner, outer, radius, c);
    LowerAllIsLeast(g[c].alpha, PartyFades(party, q, h, inner, outer, radius, c));
    PartyFadesListed(party, q, h, inner, outer, radius, c);
  }

  /** Each follower whose circle reports the tile, and the leader when its
      circle does, offers the tile its fade. */
  lemma PartyFadesListed(party: seq<Point>, q: CircleQuery, h: Hypot, inner: real, outer: real, radius: real, c: Cell)
    requires |party| >= 1
    ensures forall i | 1 <= i < |party| && c in q(party[i], radius) ::
      DistanceAlpha(h, party[i], c, PartyFadeFraction * radius, radius) in PartyFades(party, q, h, inner, outer, radius, c)
    ensures c in q(party[0], outer) ==>
      DistanceAlpha(h, party[0], c, inner, outer) in PartyFades(party, q, h, inner, outer, radius, c)
  {
    var fades := PartyFades(party, q, h, inner, outer, radius, c);
    forall i | 1 <= i < |party| && c in q(party[i], radius)
      ensures DistanceAlpha(h, party[i], c, PartyFadeFraction * radius, radius) in fades
    {
      assert party[1..][i - 1] == party[i];
      FollowerFadesListed(party[1..], q, h, radius, c, i - 1);
    }
    if c in q(party[0], outer) {
      assert fades[|fades| - 1] == DistanceAlpha(h, party[0], c, inner, outer);
    }
  }

  /** A follower whose circle reports the tile offers it its fade. */
  lemma FollowerFadesListed(followers: seq<Point>, q: CircleQuery, h: Hypot, radius: real, c: Cell, i: nat)
    requires i < |followers| && c in q(followers[i], radius)
    ensures DistanceAlpha(h, followers[i], c, PartyFadeFraction * radius, radius) in FollowerFades(followers, q, h, radius, c)
    decreases i
  {
    if i > 0 {
      FollowerFadesListed(followers[1..], q, h, radius, c, i - 1);
    }
  }

  /** Once a tile is at or below 0, the followers' fades keep it there. */
  lemma {:induction false} FollowersKeepAtMostZero(g: Grid, followers: seq<Point>, q: CircleQuery, h: Hypot,
                                                   radius: real, c: Cell)
    requires c in g && AtMost(g[c].alpha, Finite(0.0))
    ensures AtMost(FadeFollowers(g, followers, q, h, radius)[c].alpha, Finite(0.0))
    decreases |followers|
  {
    if followers != [] {
      var p := followers[0];
      var g1 := LowerTo(g, InCircle(q, g, p, radius), h, p, PartyFadeFraction * radius, radius);
      var g2 := Paint(g1, InCircle(q, g1, p, radius * PartyInnerFraction), Finite(0.0));
      LessIsStrictOrder(g1[c].alpha, g[c].alpha, Finite(0.0));
      assert AtMost(g2[c].alpha, Finite(0.0));
      FollowersKeepAtMostZero(g2, followers[1..], q, h, radius, c);
    }
  }

  /** A tile in some follower's quarter-radius circle ends at 0 or below
      after the followers' fades. */
  lemma {:induction false} FollowersQuarterCircle(g: Grid, followers: seq<Point>, q: CircleQuery, h: Hypot,
                                                  radius: real, c: Cell, i: nat)
    requires c in g && i < |followers| && c in q(followers[i], radius * PartyInnerFraction)
    ensures AtMost(FadeFollowers(g, followers, q, h, radius)[c].alpha, Finite(0.0))
    decreases |followers|
  {
    var p := followers[0];
    var g1 := LowerTo(g, InCircle(q, g, p, radius), h, p, PartyFadeFraction * radius, radius);
    var g2 := Paint(g1, InCircle(q, g1, p, radius * PartyInnerFraction), Finite(0.0));
    if i == 0 {
      assert g2[c].alpha == Finite(0.0);
      FollowersKeepAtMostZero(g2, followers[1..], q, h, radius, c);
    } else {
      assert followers[1..][i - 1] == followers[i];
      FollowersQuarterCircle(g2, followers[1..], q, h, radius, c, i - 1);
    }
  }

  /** A tile in some follower's quarter-radius circle ends at 0 or below
      once the leader's fade has run too. */
  lemma PartyFadeQuarterCircle(g: Grid, party: seq<Point>, q: CircleQuery, h: Hypot,
                               inner: real, outer: real, radius: real, c: Cell, i: nat)
    requires |party| >= 1 && c in g
    requires 1 <= i < |party| && c in q(party[i], radius * PartyInnerFraction)
    ensures AtMost(PartyFade(g, party, q, h, inner, outer, radius)[c].alpha, Finite(0.0))
  {
    assert party[1..][i - 1] == party[i];
    FollowersQuarterCircle(g, party[1..], q, h, radius, c, i - 1);
    var gf := FadeFollowers(g, party[1..], q, h, radius);
    LeaderFade(gf, party[0], q, h, inner, outer, c);
    LessIsStrictOrder(PartyFade(g, party, q, h, inner, outer, radius)[c].alpha, gf[c].alpha, Finite(0.0));
  }

  /** Outside every inner circle the fades of the followers and the
      leader together never raise a tile's opacity. */
  lemma PartyFadeOnlyLowers(g: Grid, party: seq<Point>, q: CircleQuery, h: Hypot,
                            inner: real, outer: real, radius: real, c: Cell)
    requires |party| >= 1 && c in g
    requires c !in q(party[0], inner)
    requires forall i | 1 <= i < |party| :: c !in q(party[i], radius * PartyInnerFraction)
    ensures AtMost(PartyFade(g, party, q, h, inner, outer, radius)[c].alpha, g[c].alpha)
  {
    var followers := party[1..];
    forall i | 0 <= i < |followers|
      ensures c !in q(followers[i], radius * PartyInnerFraction)
    {
      assert followers[i] == party[i + 1];
    }
    FollowersNeverRaise(g, followers, q, h, radius, c);
    var gf := FadeFollowers(g, followers, q, h, radius);
    LeaderFade(gf, party[0], q, h, inner, outer, c);
    LessIsStrictOrder(FadeLeader(gf, party[0], q, h, inner, outer)[c].alpha, gf[c].alpha, g[c].alpha);
  }

  /** A tile in the leader's inner circle ends fully transparent, whatever
      the followers' fades did to it. */
  lemma PartyFadeLeaderInner(g: Grid, party: seq<Point>, q: CircleQuery, h: Hypot,
                             inner: real, outer: real, radius: real, c: Cell)
    requires |party| >= 1 && c in g && c in q(party[0], inner)
    ensures PartyFade(g, party, q, h, inner, outer, radius)[c].alpha == Finite(0.0)
  {
    LeaderFade(FadeFollowers(g, party[1..], q, h, radius), party[0], q, h, inner, outer, c);
  }

  /** A tile outside every circle of the party is left as it was. */
  lemma PartyFadeLeavesOthers(g: Grid, party: seq<Point>, q: CircleQuery, h: Hypot,
                              inner: real, outer: real, radius: real, c: Cell)
    requires |party| >= 1 && c in g
    requires c !in q(party[0], inner) && c !in q(party[0], outer)
    requires forall i | 1 <= i < |party| :: c !in q(party[i], radius) && c !in q(party[i], radius * PartyInnerFraction)
    ensures PartyFade(g, party, q, h, inner, outer, radius)[c] == g[c]
  {
    var followers := party[1..];
    forall i | 0 <= i < |followers|
      ensures c !in q(followers[i], radius) && c !in q(followers[i], radius * PartyInnerFraction)
    {
      assert followers[i] == party[i + 1];
    }
    FollowersLeaveOthers(g, followers, q, h, radius, c);
    LeaderFade(FadeFollowers(g, followers, q, h, radius), party[0], q, h, inner, outer, c);
  }

  /** Outside build mode the pass only lowers opacity ("most restrictive
      wins") on every tile outside the fully transparent inner circles; the
      inner circles are written unconditionally, so they are the only place
      opacity can go up (from a negative fade back to 0). */
  lemma FadeOnlyLowers(s: RoofState, roofSelected: bool, party: seq<Point>,
                       q: CircleQuery, h: Hypot, c: Cell)
    requires |party| >= 1 && c in s.grid
    requires c !in q(party[0], LeaderInnerFraction * s.vision.leader as real)
    requires forall i | 1 <= i < |party| ::
      c !in q(party[i], Step(s.vision, CellAt(party[0]) in s.grid).party as real * PartyInnerFraction)
    ensures AtMost(RoofPass(s, false, roofSelected, party, q, h).grid[c].alpha, s.grid[c].alpha)
  {
    hide Faded, PartyFade, BuildPaint;
    RoofPassAlpha(s, false, roofSelected, party, q, h, c);
    FadedOnlyLowers(s, Stepped(s, false, party), roofSelected, party, q, h, c);
  }

  /** Outside build mode, with any radii `v`, the fade half only lowers
      opacity outside the inner circles. */
  lemma FadedOnlyLowers(s: RoofState, v: Vision, roofSelected: bool, party: seq<Point>,
                        q: CircleQuery, h: Hypot, c: Cell)
    requires |party| >= 1 && c in s.grid
    requires c !in q(party[0], LeaderInnerFraction * s.vision.leader as real)
    requires forall i | 1 <= i < |party| :: c !in q(party[i], v.party as real * PartyInnerFraction)
    ensures AtMost(Faded(s, v, false, roofSelected, party, q, h)[c].alpha, s.grid[c].alpha)
  {
    hide PartyFade, BuildPaint;
    PartyFadeOnlyLowers(s.grid, party, q, h, LeaderInnerFraction * s.vision.leader as real,
                        v.leader as real, v.party as real, c);
  }

  /** Outside build mode and outside every inner circle, the pass leaves a
      tile at its opacity offered, in party order, each follower's fade
      between half and all of this tick's follower radius, then the
      leader's between half the leader radius before the step and the
      leader radius after it; each is written only when strictly lower. */
  lemma RoofPassFadeValue(s: RoofState, roofSelected: bool, party: seq<Point>,
                          q: CircleQuery, h: Hypot, c: Cell)
    requires |party| >= 1 && c in s.grid
    requires c !in q(party[0], LeaderInnerFraction * s.vision.leader as real)
    requires forall i | 1 <= i < |party| ::
      c !in q(party[i], Step(s.vision, CellAt(party[0]) in s.grid).party as real * PartyInnerFraction)
    ensures var v := Step(s.vision, CellAt(party[0]) in s.grid);
      RoofPass(s, false, roofSelected, party, q, h).grid[c].alpha
        == LowerAll(s.grid[c].alpha, PartyFades(party, q, h, LeaderInnerFraction * s.vision.leader as real,
                                                v.leader as real, v.party as real, c))
  {
    hide Faded, PartyFade, BuildPaint;
    RoofPassAlpha(s, false, roofSelected, party, q, h, c);
    FadedValue(s, Stepped(s, false, party), roofSelected, party, q, h, c);
  }

  /** The same for the fade half outside build mode with any radii `v`. */
  lemma FadedValue(s: RoofState, v: Vision, roofSelected: bool, party: seq<Point>,
                   q: CircleQuery, h: Hypot, c: Cell)
    requires |party| >= 1 && c in s.grid
    requires c !in q(party[0], LeaderInnerFraction * s.vision.leader as real)
    requires forall i | 1 <= i < |party| :: c !in q(party[i], v.party as real * PartyInnerFraction)
    ensures Faded(s, v, false, roofSelected, party, q, h)[c].alpha
         == LowerAll(s.grid[c].alpha, PartyFades(party, q, h, LeaderInnerFraction * s.vision.leader as real,
                                                 v.leader as real, v.party as real, c))
  {
    hide PartyFade, BuildPaint;
    PartyFadeValue(s.grid, party, q, h, LeaderInnerFraction * s.vision.leader as real,
                   v.leader as real, v.party as real, c);
  }

  /** Outside build mode every tile the leader's inner circle reaches ends
      fully transparent, because that circle is written last. */
  lemma LeaderInnerCircleTransparent(s: RoofState, roofSelected: bool, party: seq<Point>,
                                     q: CircleQuery, h: Hypot, c: Cell)
    requires |party| >= 1 && c in s.grid
    requires c in q(party[0], LeaderInnerFraction * s.vision.leader as real)
    ensures RoofPass(s, false, roofSelected, party, q, h).grid[c].alpha == Finite(0.0)
  {
    hide Faded, PartyFade, BuildPaint;
    RoofPassAlpha(s, false, roofSelected, party, q, h, c);
    FadedLeaderInner(s, Stepped(s, false, party), roofSelected, party, q, h, c);
  }

  /** Outside build mode, with any radii `v`, the fade half leaves the
      leader's inner circle fully transparent. */
  lemma FadedLeaderInner(s: RoofState, v: Vision, roofSelected: bool, party: seq<Point>,
                         q: CircleQuery, h: Hypot, c: Cell)
    requires |party| >= 1 && c in s.grid
    requires c in q(party[0], LeaderInnerFraction * s.vision.leader as real)
    ensures Faded(s, v, false, roofSelected, party, q, h)[c].alpha == Finite(0.0)
  {
    hide PartyFade, BuildPaint;
    PartyFadeLeaderInner(s.grid, party, q, h, LeaderInnerFraction * s.vision.leader as real,
                         v.leader as real, v.party as real, c);
  }

  /** A tile no circle of this tick reaches keeps its opacity, in either mode. */
  lemma UnreachedTilesKeepAlpha(s: RoofState, buildMode: bool, roofSelected: bool, party: seq<Point>,
                                q: CircleQuery, h: Hypot, c: Cell)
    requires |party| >= 1 && c in s.grid
    requires var v := Step(s.vision, CellAt(party[0]) in s.grid || buildMode);
      && c !in q(party[0], v.leader as real)
      && c !in q(party[0], LeaderInnerFraction * s.vision.leader as real)
      && forall i | 1 <= i < |party| ::
           c !in q(party[i], v.party as real) && c !in q(party[i], v.party as real * PartyInnerFraction)
    ensures RoofPass(s, buildMode, roofSelected, party, q, h).grid[c].alpha == s.grid[c].alpha
  {
    hide RoofPass, Faded, PartyFade, BuildPaint;
    if buildMode {
      BuildModeAlphas(s, roofSelected, party, q, h, c);
    } else {
      RoofPassAlpha(s, buildMode, roofSelected, party, q, h, c);
      FadedLeavesOthers(s, Stepped(s, buildMode, party), roofSelected, party, q, h, c);
    }
  }

  /** Outside build mode, with any radii `v`, the fade half leaves a tile
      outside every circle as it was. */
  lemma FadedLeavesOthers(s: RoofState, v: Vision, roofSelected: bool, party: seq<Point>,
                          q: CircleQuery, h: Hypot, c: Cell)
    requires |party| >= 1 && c in s.grid
    requires c !in q(party[0], v.leader as real)
    requires c !in q(party[0], LeaderInnerFraction * s.vision.leader as real)
    requires forall i | 1 <= i < |party| ::
      c !in q(party[i], v.party as real) && c !in q(party[i], v.party as real * PartyInnerFraction)
    ensures Faded(s, v, false, roofSelected, party, q, h)[c] == s.grid[c]
  {
    hide PartyFade, BuildPaint;
    PartyFadeLeavesOthers(s.grid, party, q, h, LeaderInnerFraction * s.vision.leader as real,
                          v.leader as real, v.party as real, c);
  }

  /** Firing a pending batch makes exactly the tiles still waiting on it
      opaque and no longer waiting, leaves every other tile alone, retires
      the batch, lowers the timer count by one and keeps the markers
      consistent with what is still pending. */
  lemma FireResetsExactlyItsTiles(g: Grid, t: Timers, id: nat)
    requires TimersConsistent(g, t) && id in t.pending
    ensures var r := Fire(g, t, id);
      && (forall c | c in g :: r.0[c] ==
            if g[c].fadeTimer == Some(id) then g[c].(alpha := Finite(1.0), fadeTimer := None) else g[c])
      && id !in r.1.pending
      && r.1.numTimers == t.numTimers - 1
      && TimersConsistent(r.0, r.1)
  {
    var r := Fire(g, t, id);
    assert r.1.pending.Keys == t.pending.Keys - {id};
    assert |t.pending.Keys - {id}| == |t.pending.Keys| - 1;
  }

  /** Every tile the pass put in its new batch is opaque again and no
      longer waiting once that batch fires, wherever the party stands by
      then. */
  lemma FiringNewBatchRestores(s: RoofState, buildMode: bool, roofSelected: bool, party: seq<Point>,
                               q: CircleQuery, h: Hypot, c: Cell)
    requires |party| >= 1 && TimersConsistent(s.grid, s.timers)
    requires c in Untimed(s.grid, SearchedCells(s, buildMode, party, q))
    ensures var r := RoofPass(s, buildMode, roofSelected, party, q, h);
      var f := Fire(r.grid, r.timers, s.timers.nextId);
      f.0[c].alpha == Finite(1.0) && f.0[c].fadeTimer.None?
  {
    RoofPassMarksNewBatch(s, buildMode, roofSelected, party, q, h);
    RoofPassKeepsTimersConsistent(s, buildMode, roofSelected, party, q, h);
    var r := RoofPass(s, buildMode, roofSelected, party, q, h);
    FireResetsExactlyItsTiles(r.grid, r.timers, s.timers.nextId);
  }

  /** A search that reaches the tile at column 1, row 0 with radius 1.5
      but not with radius 1, as a circle centred at (14.8, 8) does when a
      tile counts as reached once the circle meets its box (the box's
      nearest point is 1.2 away). Larger radii reach no fewer tiles. */
  function ExampleQuery(p: Point, radius: real): set<Cell> {
    if radius >= 1.5 then {Cell(1, 0)} else {}
  }

  /** The leader's inner circle can reach a tile that no searched circle
      does, and such a tile is made fully transparent without joining a
      reset batch: with the leader radius stepping down from 3 to 1 the
      inner radius is 1.5 (half the radius before the step) while the
      searched circle has radius 1, so the roof tile beside the leader is
      left at opacity 0 with nothing scheduled to restore it. */
  lemma InnerCircleTileLeftUnscheduled(h: Hypot)
    ensures forall p: Point, r1: real, r2: real | r1 <= r2 :: ExampleQuery(p, r1) <= ExampleQuery(p, r2)
    ensures var tile := Tile(1, 0, Finite(1.0), false, None, None);
      var s := RoofState(map[Cell(1, 0) := tile], Timers(map[], 0, 0), Vision(3, 40));
      var r := RoofPass(s, false, false, [Point(14.8, 8.0)], ExampleQuery, h);
      && r.grid[Cell(1, 0)].alpha == Finite(0.0)
      && r.grid[Cell(1, 0)].fadeTimer.None?
      && r.timers == s.timers
  {
    var tile := Tile(1, 0, Finite(1.0), false, None, None);
    var s := RoofState(map[Cell(1, 0) := tile], Timers(map[], 0, 0), Vision(3, 40));
    var party := [Point(14.8, 8.0)];
    assert CellAt(party[0]) == Cell(0, 0);
    assert Step(s.vision, false) == Vision(1, 40);
    assert SearchedCells(s, false, party, ExampleQuery) == {};
    assert InCircle(ExampleQuery, s.grid, party[0], 1.0) == {};
    var g := Faded(s, Vision(1, 40), false, false, party, ExampleQuery, h);
    assert g[Cell(1, 0)].alpha == Finite(0.0);
    assert Untimed(g, {}) == {};
  }
}

=== FILE: session.dfy ===
/** The build session: mode, tool, layer, selected tile and rotation, and the
    two cursor sprites whose visibility the builder controls. The session is
    changed only by the configuration events handled here. */
module Session {
  import opened Wrappers
  import opened Layers

  datatype Tool = NoTool | Hammer | Pick

  /** The tile chosen in the build menu: its tile set and its offset in it. */
  datatype TileData = TileData(tileSetKey: string, tileSetOffset: int)

  /** `rotation` is in degrees and never normalised. */
  datatype Session = Session(
    buildMode: bool,
    tool: Tool,
    layer: Option<Layer>,
    current: Option<TileData>,
    rotation: int)

  /** The cursor tile sprite is created by the first tile selection and then
      kept for the builder's lifetime. */
  datatype CursorTile = NotCreated | Created(visible: bool)

  datatype Cursors = Cursors(tile: CursorTile, toolVisible: bool)

  /** Everything the configuration events can change. */
  datatype Ui = Ui(session: Session, cursors: Cursors)

  datatype Event =
    | NewTileSelected(data: TileData)
    | RotateRight
    | RotateLeft
    | EnterBuildMode
    | ExitBuildMode
    | HammerSelected
    | PickSelected
    | LayerChanged(layer: Layer)
    | LayerCleared
    | ToolCleared

  /** Angle added by one quarter turn. */
  const QuarterTurn: int := 90

  /** The builder's state when it is constructed. */
  function InitialUi(): (u: Ui)
    ensures !u.session.buildMode && u.session.tool == NoTool && u.session.layer.None?
    ensures u.session.current.None? && u.session.rotation == 0
    ensures u.cursors.tile.NotCreated? && !u.cursors.toolVisible
  {
    Ui(Session(false, NoTool, None, None, 0), Cursors(NotCreated, false))
  }

  /** `setVisible` on the cursor tile, which only acts once it exists. */
  function ShowCursorTile(t: CursorTile, visible: bool): (r: CursorTile)
    ensures r.Created? <==> t.Created?
    ensures r.Created? ==> r.visible == visible
  {
    if t.Created? then Created(visible) else NotCreated
  }

  predicate CursorTileVisible(c: Cursors) {
    c.tile.Created? && c.tile.visible
  }

  /** The handler of each configuration event. */
  function Handle(u: Ui, e: Event): (r: Ui)
    ensures r.session.buildMode ==
      (if e.EnterBuildMode? then true else if e.ExitBuildMode? then false else u.session.buildMode)
    ensures r.session.tool ==
      (match e
       case HammerSelected => Hammer
       case PickSelected => Pick
       case ToolCleared => NoTool
       case _ => u.session.tool)
    ensures r.session.layer ==
      (match e
       case LayerChanged(l) => Some(l)
       case LayerCleared => None
       case _ => u.session.layer)
    ensures r.session.current ==
      (match e
       case NewTileSelected(d) => Some(d)
       case LayerChanged(_) => None
       case LayerCleared => None
       case _ => u.session.current)
    ensures r.session.rotation - u.session.rotation ==
      (if e.RotateRight? then QuarterTurn else if e.RotateLeft? then -QuarterTurn else 0)
    ensures e.ExitBuildMode? ==> !r.cursors.toolVisible && !CursorTileVisible(r.cursors)
    ensures e.NewTileSelected? ==> r.cursors.tile.Created?
    ensures !e.ExitBuildMode? && !e.NewTileSelected? ==> r.cursors == u.cursors
    ensures r.cursors.tile.Created? <==> u.cursors.tile.Created? || e.NewTileSelected?
  {
    var s := u.session;
    match e
    case NewTileSelected(d) =>
      // the first selection creates the cursor tile, hidden
      var tile := if u.cursors.tile.Created? then u.cursors.tile else Created(false);
      Ui(s.(current := Some(d)), u.cursors.(tile := tile))
    case RotateRight => u.(session := s.(rotation := s.rotation + QuarterTurn))
    case RotateLeft => u.(session := s.(rotation := s.rotation - QuarterTurn))
    case EnterBuildMode => u.(session := s.(buildMode := true))
    case ExitBuildMode =>
      Ui(s.(buildMode := false), Cursors(ShowCursorTile(u.cursors.tile, false), false))
    case HammerSelected => u.(session := s.(tool := Hammer))
    case PickSelected => u.(session := s.(tool := Pick))
    case LayerChanged(l) => u.(session := s.(layer := Some(l), current := None))
    case LayerCleared => u.(session := s.(layer := None, current := None))
    case ToolCleared => u.(session := s.(tool := NoTool))
  }

  /** Every event other than a rotation is idempotent: handling it twice in
      a row leaves the same state as handling it once. */
  lemma NonRotationEventsIdempotent(u: Ui, e: Event)
    requires !e.RotateRight? && !e.RotateLeft?
    ensures Handle(Handle(u, e), e) == Handle(u, e)
  {
  }

  /** The two rotations undo each other exactly, in either order. */
  lemma RotationsCancel(u: Ui)
    ensures Handle(Handle(u, RotateRight), RotateLeft) == u
    ensures Handle(Handle(u, RotateLeft), RotateRight) == u
  {
  }

  /** Rotation is not normalised: n quarter turns to the right add 90*n
      degrees and change nothing else. */
  lemma {:induction false} RightTurnsAccumulate(u: Ui, n: nat)
    ensures TurnRight(u, n).session == u.session.(rotation := u.session.rotation + n * QuarterTurn)
    ensures TurnRight(u, n).cursors == u.cursors
  {
    if n > 0 {
      RightTurnsAccumulate(u, n - 1);
    }
  }

  function TurnRight(u: Ui, n: nat): Ui {
    if n == 0 then u else Handle(TurnRight(u, n - 1), RotateRight)
  }

  /** Changing layer forgets the selected tile whatever the previous layer
      was, including the same one, and only the last layer change counts. */
  lemma LayerChangeForgetsTile(u: Ui, a: Layer, b: Layer)
    ensures Handle(u, LayerChanged(a)).session.current.None?
    ensures Handle(Handle(u, LayerChanged(a)), LayerChanged(b)) == Handle(u, LayerChanged(b))
  {
  }

  /** The cursor tile exists whenever a tile is selected. */
  predicate CursorForSelection(u: Ui) {
    u.session.current.Some? ==> u.cursors.tile.Created?
  }

  /** Every handler keeps `CursorForSelection`, so placement code that shows
      the cursor tile for the selected tile always finds it. */
  lemma HandleKeepsCursorForSelection(u: Ui, e: Event)
    requires CursorForSelection(u)
    ensures CursorForSelection(Handle(u, e))
  {
  }
}

=== FILE: vision.dfy ===
/** The two see-through radii kept across ticks: the leader's and the one
    shared by the other party members. Each tick both step up or both step
    down; the guard is tested before the step, so a step may pass its cap
    or floor by less than one step. */
module Vision {

  const MaxLeaderRadius: int := 200
  const LeaderGrowth: int := 3
  const LeaderShrink: int := 2
  const LeaderFloor: int := 0
  const MaxPartyRadius: int := 60
  const PartyGrowth: int := 2
  const PartyShrink: int := 1
  const PartyFloor: int := 40

  datatype Vision = Vision(leader: int, party: int)

  function Min(a: int, b: int): int { if a <= b then a else b }
  function Max(a: int, b: int): int { if a >= b then a else b }

  /** One tick of radius stepping; `widen` holds when the leader stands
      under a roof tile or build mode is on. Both radii move the same way,
      each by at most one step. */
  function Step(v: Vision, widen: bool): (r: Vision)
    ensures widen ==> v.leader <= r.leader <= v.leader + LeaderGrowth && v.party <= r.party <= v.party + PartyGrowth
    ensures !widen ==> v.leader - LeaderShrink <= r.leader <= v.leader && v.party - PartyShrink <= r.party <= v.party
  {
    if widen then
      Vision(if v.leader < MaxLeaderRadius then v.leader + LeaderGrowth else v.leader,
             if v.party < MaxPartyRadius then v.party + PartyGrowth else v.party)
    else
      Vision(if v.leader > LeaderFloor then v.leader - LeaderShrink else v.leader,
             if v.party > PartyFloor then v.party - PartyShrink else v.party)
  }

  /** The range the radii keep when they start at zero. */
  predicate InBounds(v: Vision) {
    -1 <= v.leader <= MaxLeaderRadius + LeaderGrowth - 1
    && 0 <= v.party <= MaxPartyRadius + PartyGrowth - 1
  }

  /** Stepping keeps the radii in range, moves both the same way, and moves
      the leader radius by at most one step. */
  lemma StepKeepsBounds(v: Vision, widen: bool)
    requires InBounds(v)
    ensures InBounds(Step(v, widen))
    ensures widen ==> Step(v, widen).leader >= v.leader && Step(v, widen).party >= v.party
    ensures !widen ==> Step(v, widen).leader <= v.leader && Step(v, widen).party <= v.party
  {
  }

  /** Each radius moves only when its guard, tested on the value before the
      step, allows it: the leader's grows while below 200 and shrinks while
      above 0, the party radius grows while below 60 and shrinks while above 40. */
  lemma StepGuards(v: Vision)
    ensures Step(v, true).leader > v.leader <==> v.leader < MaxLeaderRadius
    ensures Step(v, false).leader < v.leader <==> v.leader > LeaderFloor
    ensures Step(v, true).party > v.party <==> v.party < MaxPartyRadius
    ensures Step(v, false).party < v.party <==> v.party > PartyFloor
    ensures Step(v, true).leader - v.leader in {0, LeaderGrowth}
    ensures v.leader - Step(v, false).leader in {0, LeaderShrink}
    ensures Step(v, true).party - v.party in {0, PartyGrowth}
    ensures v.party - Step(v, false).party in {0, PartyShrink}
  {
  }

  /** `n` ticks with the same condition. */
  function Iterate(v: Vision, widen: bool, n: nat): Vision {
    if n == 0 then v else Step(Iterate(v, widen, n - 1), widen)
  }

  /** From zero, n widening ticks give min(3n, 201) and min(2n, 60): the leader
      radius overshoots 200 because 198 still passes the guard. */
  lemma {:induction false} GrowFromZero(n: nat)
    ensures Iterate(Vision(0, 0), true, n) == Vision(Min(3 * n, 201), Min(2 * n, 60))
  {
    if n > 0 {
      GrowFromZero(n - 1);
    }
  }

  /** n narrowing ticks: the leader radius drops by 2 per tick and stops at
      0 or, from an odd start, at -1; the party radius drops by 1 per tick to
      40 and is left alone when it is already 40 or less. */
  lemma {:induction false} ShrinkClosedForm(v: Vision, n: nat)
    requires -1 <= v.leader
    ensures Iterate(v, false, n).leader ==
      Max(v.leader - 2 * n, if v.leader % 2 == 0 then 0 else -1)
    ensures Iterate(v, false, n).party ==
      (if v.party > PartyFloor then Max(v.party - n, PartyFloor) else v.party)
  {
    if n > 0 {
      ShrinkClosedForm(v, n - 1);
    }
  }

  /** The bounds of `InBounds` are reached from zero, so neither is loose:
      67 widening ticks, one narrowing and one widening give 202 and 61;
      widen, narrow, narrow gives -1. */
  lemma BoundsAreTight()
    ensures Step(Step(Iterate(Vision(0, 0), true, 67), false), true) == Vision(202, 61)
    ensures Step(Step(Step(Vision(0, 0), true), false), false).leader == -1
  {
    GrowFromZero(67);
  }
}

=== FILE: wrappers.dfy ===
/** Optional values, used for the builder's nullable fields
    (the selected layer, the selected tile, a tile's fade timer). */
module Wrappers {

  datatype Option<+T> = None | Some(value: T)
}
